=== FILE: README.md ===
# Chrysler CAN codec and car fingerprinting, modelled in Dafny

This project models two parts of the openpilot car layer.

- **The Chrysler CAN codec** (`selfdrive/car/chrysler/chryslercan.py`). It covers:
  - the bit-serial checksum `calc_checksum`;
  - the raw frame constructor `make_can_msg`;
  - the message builders for the lane-keeping HUD, the LKAS steering command, the chimes, the steering-wheel buttons, the path polynomial (front and back) and the steering-angle telemetry.
- **Fingerprinting and dispatch** (`selfdrive/car/car_helpers.py`). It covers:
  - `load_interfaces`, which maps every model name to its brand's interface class;
  - the polling loop of `fingerprint`, which narrows the candidate models from the CAN frames it sees and accumulates a signature of address to payload length;
  - `get_car`, which dispatches the result to the matching interface.

The source's checksum keeps its register in an unbounded Python integer. The register is shifted left on every bit and never masked until the final `~checksum & 0xFF`. `Checksum` models that register as written. It then proves the result equal to the MSB-first CRC-8 of SAE J1850: polynomial 0x1D, initial value 0xFF, final complement, with the 8-bit register masked after every shift. The high bits the source lets accumulate never reach bit 7 or the result.

Files and modules:

| file | module | contents |
|---|---|---|
| `wrappers.dfy` | `Wrappers` | `Option` |
| `bytes.dfy` | `Bytes` | the `Byte` type |
| `checksum.dfy` | `Checksum` | `calc_checksum` as written, the reference CRC-8, and their equivalence |
| `chryslercan.dfy` | `ChryslerCan` | the frame constructor and the message builders |
| `fingerprint.dfy` | `Fingerprint` | the fingerprinting loop, as a state advanced once per poll |
| `car_helpers.dfy` | `CarHelpers` | `load_interfaces`, the dispatch, and `get_car` |

Modelling choices:

- Builders that go through `packer.make_can_msg` return the request they hand to the packer: message name, bus and signal values. The packer's bit layout is not part of this model. `create_lkas_command` packs twice, and its checksum depends on the first packing's bytes, so for that builder the packer's payload function is a parameter.
- Python's `^` on non-negative integers is `Checksum.Xor`, which is proved bitwise. `~c & 0xFF` is `(-c - 1) % 256`: for a positive modulus such as 256, Dafny's Euclidean `%` agrees with Python's on negative operands.
- Python floats are reals. `int(x)` is truncation toward zero (`ChryslerCan.Trunc`).
- The loop of `fingerprint` is an explicit state `FpState`: the candidates, the signature `finger`, the start time `st` and `can_seen`. The model processes it as follows:
  - the state advances once per poll: first the drained frames (`Advance`), then the accept/fail/continue decision (`Decide`);
  - each poll carries its frames and the two clock readings that lines 67 and 68 take;
  - the session start `st_passive` is a parameter;
  - the per-frame elimination `eliminate_incompatible_cars` and the candidate list `all_known_cars()` are parameters, because `common/fingerprints.py` is not part of this model. The lemmas about candidates assume only what they say about the eliminator: it never adds a candidate and never lengthens the list.
- `get_car` is modelled in three pieces:
  - the dispatch on a `(candidate, fingerprints)` pair (`Dispatch`);
  - the replacement of the fingerprinting result by a fixed candidate and signature at lines 93-94 (`Override`);
  - their composition (`GetCar`).
  The same dispatch applied to the fingerprinting result itself is `GetCarWithoutOverride`.
- Three behaviours of the code worth stating plainly:
  - **Sign bits.** A sign bit is `int(bool(x > 0))`: 1 only for a strictly positive value, 0 for zero and for negative values. `ChryslerCan.PathPolyExample` shows -5e-8 sent as sign 0, magnitude 5 and 2e-6 as sign 1, magnitude 2.
  - **Start-time latch.** `st` is latched at the first poll after *any* frame has been seen, filtered or not. Frames on other buses or with 29-bit identifiers count too, because `can_seen` is set (car_helpers.py line 59) before the bus/address filter and is what line 66 tests.
  - **The checksum is CRC-8/SAE J1850.** `Checksum.CalcChecksumIsCrc8J1850` proves that `calc_checksum` computes exactly that CRC on every non-empty input.

## Model

| member | source | states |
|---|---|---|
| `Checksum.CalcChecksum` | selfdrive/car/chrysler/chryslercan.py:7-41 | No checksum (`False`) exactly for the empty list; otherwise the CRC-8 of SAE J1850 of the data |
| `Checksum.CalcChecksumIsCrc8J1850` | selfdrive/car/chrysler/chryslercan.py:12-41 | `~checksum & 0xFF` of the never-masked register equals the reference CRC-8 (0x1D, init 0xFF, final complement), for every data list |
| `Checksum.UnmaskedRegisterMatchesMasked` | selfdrive/car/chrysler/chryslercan.py:19-40 | For any start value, the low byte of the source's unbounded register after the whole data equals the 8-bit CRC register masked after every shift |
| `Checksum.ShiftInMatchesCrc8` | selfdrive/car/chrysler/chryslercan.py:20-40 | The inner loop over one byte, masked at the end, equals the masked CRC register run over that byte's bits, MSB first |
| `Checksum.StepMatchesCrc8Step` | selfdrive/car/chrysler/chryslercan.py:25-39 | One pass of the `while` loop, masked, is one CRC-8 step: shift, mask, and XOR 0x1D exactly when the bit shifted out differs from the data bit |
| `Checksum.XorIsBitwise` | selfdrive/car/chrysler/chryslercan.py:33-38 | The model of `^` sets bit j exactly when bit j is set in one operand and not the other |
| `Checksum.XorMod` | selfdrive/car/chrysler/chryslercan.py:33-41 | Masking to k bits commutes with `^`, so the unmasked XORs agree with masked ones on the low byte |
| `Checksum.ComplementIsByteComplement` | selfdrive/car/chrysler/chryslercan.py:41 | `~c & 0xFF` is `255 - c mod 256` for every integer c, negative or not |
| `Checksum.WheelButtonsFrameZeroChecksum` | selfdrive/car/chrysler/chryslercan.py:7-41 | The checksum of `01 00` is `0xF2` |
| `ChryslerCan.MakeCanMsg` | selfdrive/car/chrysler/chryslercan.py:44-45 | A raw frame keeps the address and payload, with bus time 0 and source bus 0 |
| `ChryslerCan.CreateLkasHud` | selfdrive/car/chrysler/chryslercan.py:48-78 | Steer-required: the fixed raw frame `00 00 00 03 00 00 00 00` at 0x2a6. Otherwise exactly four signals: alert flag 1 iff `hud_count < 4`, car model passed through, and (color, lines) = (2, 6) iff in drive, reverse or low with LKAS active, else (1, 1) |
| `ChryslerCan.SteerRequiredHudIgnoresState` | selfdrive/car/chrysler/chryslercan.py:51-53 | With the steer-required alert, the HUD frame is the same whatever the gear, LKAS state, count and car model, and byte 3 is 3 |
| `ChryslerCan.DropLast` | selfdrive/car/chrysler/chryslercan.py:90 | `dat[:-1]` is the payload without its last byte, and empty for an empty payload |
| `ChryslerCan.CreateLkasCommand` | selfdrive/car/chrysler/chryslercan.py:81-94 | Exactly four signals: torque passed through, high-torque flag 1 iff moving fast, counter = frame mod 16. CHECKSUM is the CRC-8 of the first packing's bytes less the last, or 0 (`False`) when that leaves fewer than one byte |
| `ChryslerCan.LkasCommandCounterPeriodic` | selfdrive/car/chrysler/chryslercan.py:86 | The command message repeats with period 16 in the frame index |
| `ChryslerCan.CreateChimes` | selfdrive/car/chrysler/chryslercan.py:97-103 | A frame at 0x339 whose payload is `00 50` iff there is no audible alert and `4f 55` iff there is one |
| `ChryslerCan.ChimesHaveTwoOutputs` | selfdrive/car/chrysler/chryslercan.py:99-102 | Two alerts give the same frame iff both or neither are `none` |
| `ChryslerCan.WheelCounter` | selfdrive/car/chrysler/chryslercan.py:109 | `(frame % 10) << 4` is a byte with a zero low nibble, at most 0x90, whose high nibble is frame mod 10 |
| `ChryslerCan.WheelChecksum` | selfdrive/car/chrysler/chryslercan.py:111 | The appended byte is the CRC-8 of `[0x01, counter]` (never `False`, since the list is not empty) |
| `ChryslerCan.CreateWheelButtons` | selfdrive/car/chrysler/chryslercan.py:106-112 | A three-byte frame at 0x23b: ACC cancel `0x01`, the counter in the high nibble, and the CRC-8 of the first two bytes |
| `ChryslerCan.WheelButtonsPeriodic` | selfdrive/car/chrysler/chryslercan.py:109 | The wheel-button frame repeats with period 10 in the frame index |
| `ChryslerCan.WheelButtonsFrameZero` | selfdrive/car/chrysler/chryslercan.py:106-112 | Every frame index divisible by 10 sends `01 00 F2` |
| `ChryslerCan.Trunc` | selfdrive/car/chrysler/chryslercan.py:120 | `int(x)` is the integer between 0 and x nearest to x, less than one away |
| `ChryslerCan.SignBit` | selfdrive/car/chrysler/chryslercan.py:119 | `int(bool(x > 0))` is 0 or 1, and 1 exactly for a strictly positive value |
| `ChryslerCan.TruncCommutesWithAbs` | selfdrive/car/chrysler/chryslercan.py:120-146 | `abs(int(x))` equals `int(abs(x))`, and truncation is odd, so the two orders in the source encode the same magnitude |
| `ChryslerCan.CreatePathPolyFront` | selfdrive/car/chrysler/chryslercan.py:115-127 | Exactly six signals: PROB = int(10·prob); third- and second-order signs 1 when the coefficient is positive and 0 otherwise (zero and negative alike); magnitudes truncated \|c·1e8\| and \|c·1e6\|; counter = frame mod 256 |
| `ChryslerCan.CreatePathPolyBack` | selfdrive/car/chrysler/chryslercan.py:129-140 | Exactly five signals: first- and zero-order signs 1 when positive and 0 otherwise, magnitudes truncated \|c·1e6\|, counter = frame mod 256 |
| `ChryslerCan.CreateSteeringAngle` | selfdrive/car/chrysler/chryslercan.py:142-151 | Exactly five signals: angle and target magnitudes \|int(x·1e4)\|, each sign 1 when the value is positive and 0 otherwise, counter = frame mod 256 |
| `ChryslerCan.SignMagnitudeRecoversValue` | selfdrive/car/chrysler/chryslercan.py:119-122 | For a positive scale, sign and magnitude together give back the truncated scaled value |
| `ChryslerCan.PathPolyExample` | selfdrive/car/chrysler/chryslercan.py:115-140 | -5e-8 in the third-order slot is sent as sign 0, magnitude 5; 2e-6 in the first-order slot as sign 1, magnitude 2 |
| `Fingerprint.ProcessFrame` | selfdrive/car/car_helpers.py:58-64 | Any frame sets `can_seen`. A bus-0 frame with an 11-bit address overwrites its signature entry with its length and goes through elimination; any other frame leaves candidates and signature alone |
| `Fingerprint.ProcessBatch` | selfdrive/car/car_helpers.py:57-64 | After a drain, the signature gains exactly the addresses of the drained bus-0, 11-bit frames, each mapped to the length of its last such frame; all other entries and `st` are unchanged |
| `Fingerprint.LastLengthIsLatest` | selfdrive/car/car_helpers.py:62-63 | Read off by index, the last length of an address is the length of the frame after which no relevant frame carries that address |
| `Fingerprint.BatchRecordsLatestLength` | selfdrive/car/car_helpers.py:63 | For each address, the signature holds the length of the last relevant frame with that address in the drain |
| `Fingerprint.BatchKeepsOtherEntries` | selfdrive/car/car_helpers.py:62-63 | Signature entries for addresses the drain does not carry are unchanged |
| `Fingerprint.BatchKeepsCandidatesWithin` | selfdrive/car/car_helpers.py:64 | If elimination only removes candidates, a drain never brings a candidate back |
| `Fingerprint.BatchNarrowsCandidates` | selfdrive/car/car_helpers.py:64 | If elimination only removes candidates, a drain never brings a candidate back and never lengthens the list |
| `Fingerprint.Advance` | selfdrive/car/car_helpers.py:57-67 | A poll processes the drain, then latches `st` to the poll's first clock reading at the first poll with any frame seen; a latched `st` is never changed |
| `Fingerprint.SettleTime` | selfdrive/car/car_helpers.py:74 | The settle time is 1.0 iff the candidate's name contains "TOYOTA" or "LEXUS", else 0.1 |
| `Fingerprint.ToyotaSettlesInOneSecond` | selfdrive/car/car_helpers.py:74 | A name starting with "TOYOTA" settles in 1.0 |
| `Fingerprint.Decide` | selfdrive/car/car_helpers.py:72-80 | Accept iff one candidate, `st` latched and strictly more than its settle time elapsed. Fail iff not (one candidate and `st` latched), and either no candidate or a non-zero timeout exceeded since session start. The signature goes with both |
| `Fingerprint.SettlingCandidateNeverFails` | selfdrive/car/car_helpers.py:72-80 | A sole candidate with `st` latched is never failed, even past the timeout |
| `Fingerprint.NoCandidatesFails` | selfdrive/car/car_helpers.py:79-80 | With no candidate left the poll fails at once, returning the signature, whatever the timeout |
| `Fingerprint.NoTimeoutFailsOnlyWithoutCandidates` | selfdrive/car/car_helpers.py:79 | Without a timeout, or with a zero one, the poll fails iff no candidate is left |
| `Fingerprint.AcceptsExactlyAfterSettling` | selfdrive/car/car_helpers.py:72-76 | A sole candidate latched at t0 is accepted iff `ts > t0 + settle time`, and polling continues at or before it |
| `Fingerprint.LastLength` | selfdrive/car/car_helpers.py:62-63 | The length of the last frame with an address that passes the filter exists exactly when the address is among the frames that pass it |
| `Fingerprint.SignatureCompose` | selfdrive/car/car_helpers.py:56-64 | Recording one run of frames and then another gives the signature of their concatenation, so the signature depends only on the frames in order, not on how they are split into drains |
| `Fingerprint.Loop` | selfdrive/car/car_helpers.py:56-82 | While polling continues, the signature is the starting one updated by every frame consumed: each relevant address maps to the length of its last frame and other entries are unchanged. A latched `st` stays, and `can_seen` holds iff any frame arrived |
| `Fingerprint.RunFingerprint` | selfdrive/car/car_helpers.py:44-85 | Starting from an empty signature, a still-polling session's signature holds exactly the relevant addresses seen so far. Each maps to the length of its last frame |
| `Fingerprint.LoopReturnsWholeSignature` | selfdrive/car/car_helpers.py:56-85 | On accept or fail, there is a poll k at which the loop decides: the polls before it still poll, the first k polls already give this result, and the returned signature is the starting one updated by every frame of those k polls, decisive or not, with each relevant address mapping to the length of its last frame |
| `Fingerprint.IdentifiedCarWasCandidate` | selfdrive/car/car_helpers.py:51-85 | If elimination only removes candidates, an identified car is one of the starting candidates |
| `CarHelpers.Imported` | selfdrive/car/car_helpers.py:12-15 | A family's interface is present iff its import succeeds, and belongs to that family |
| `CarHelpers.FamilyEntries` | selfdrive/car/car_helpers.py:16-17 | A family contributes exactly its models, each mapped to its import outcome |
| `CarHelpers.LoadInterfaces` | selfdrive/car/car_helpers.py:9-18 | Keys are exactly the models some family lists. Each maps to the import outcome of the last family listing it |
| `CarHelpers.FingerprintTimeout` | selfdrive/car/car_helpers.py:90 | The timeout is 2 seconds when passive and absent otherwise |
| `CarHelpers.LookedUp` | selfdrive/car/car_helpers.py:97-102 | The looked-up model is the candidate, or "mock" for a passive session without one, and absent only when active without one |
| `CarHelpers.Dispatch` | selfdrive/car/car_helpers.py:97-112 | Unmatched iff no model to look up. Otherwise: a KeyError for a model outside the table, unavailable for a failed import, else the model's interface started with the given signature |
| `CarHelpers.DispatchOfKnownModel` | selfdrive/car/car_helpers.py:104-110 | A model in the table is started iff its import succeeded and reported unavailable iff it failed |
| `CarHelpers.StartedInterfaceIsListed` | selfdrive/car/car_helpers.py:9-18 | A started interface, with the table from `load_interfaces`, belongs to the last family listing the model, and that family's import succeeded |
| `CarHelpers.DispatchFingerprint` | selfdrive/car/car_helpers.py:91-112 | Dispatching the fingerprinting result waits iff fingerprinting has not returned; otherwise it dispatches the identified car, or no car, with the collected signature |
| `CarHelpers.Override` | selfdrive/car/car_helpers.py:93-94 | Once fingerprinting returns, its result is replaced by the Chrysler Pacifica Hybrid 2018 and the fixed signature |
| `CarHelpers.GetCar` | selfdrive/car/car_helpers.py:88-112 | As written, `get_car` never reports an unmatched car. What it starts is always the fixed candidate with the fixed signature. A KeyError happens only if that candidate has no interface entry |
| `CarHelpers.GetCarWithoutOverride` | selfdrive/car/car_helpers.py:88-112 | Without lines 93-94, an unmatched car happens only when active. Any started interface is the table's entry for the started model |
| `CarHelpers.GetCarIgnoresFingerprint` | selfdrive/car/car_helpers.py:91-94 | Once fingerprinting returns, `get_car`'s result is the dispatch of the fixed candidate and signature, whatever the frames |
| `CarHelpers.GetCarWithoutOverrideFollowsFingerprint` | selfdrive/car/car_helpers.py:91-112 | Without the override, an identified car with an importable interface is started with the collected signature. An unidentified car is unmatched when active and started as "mock" when passive |
| `CarHelpers.ToyotaIsIdentified` | selfdrive/car/car_helpers.py:44-85 | With two candidates and an elimination that keeps only the Toyota, the loop accepts the Toyota on the poll after its 1.0 s settle time. The signature holds both bus-0 frames and not the bus-1 one |
| `CarHelpers.OverrideDiscardsIdentifiedToyota` | selfdrive/car/car_helpers.py:91-94 | For that identified Toyota, `get_car` as written starts the Chrysler interface with the fixed signature |
| `CarHelpers.WithoutOverrideStartsToyota` | selfdrive/car/car_helpers.py:97-112 | Without the override, the same session starts the Toyota interface with the observed signature |

## Findings

| source | as written | input that shows it | evidently intended | confidence | as-written member | corrected member |
|---|---|---|---|---|---|---|
| selfdrive/car/car_helpers.py:93-94 | After fingerprinting returns, `candidate` and `fingerprints` are overwritten with "CHRYSLER PACIFICA HYBRID 2018" and a fixed signature, so the fingerprinting result is discarded | Candidates TOYOTA PRIUS 2017 and a Honda; elimination keeps the Toyota; bus-0 frames at 0x10 and 0x20, polls at t = 0 and t = 5. Fingerprinting identifies the Toyota, but `get_car` starts the Chrysler interface (`OverrideDiscardsIdentifiedToyota`) | Dispatch on the fingerprinted candidate and signature, so the Toyota interface is started with the observed signature (`WithoutOverrideStartsToyota`) | medium (the lines look like development scaffolding); not executed | `CarHelpers.GetCar` | `CarHelpers.GetCarWithoutOverride` |

## Left out

- The simulator switches at car_helpers.py lines 45-48 are left out. They return a sentinel model with no signature when the `SIMULATOR2` or `SIMULATOR` environment variable is set, and the process environment is not modelled.
- `_get_interface_names` is left out: it walks the file system and imports `values` modules. `LoadInterfaces` takes its result, the families in dictionary order, as a parameter, and whether each interface import succeeds as a parameter too.
- Socket draining, `time.sleep(0.01)`, `sec_since_boot()` and `cloudlog` are left out. They are I/O and clock, so frames and clock readings are inputs to each poll.
- `eliminate_incompatible_cars` and `all_known_cars` are parameters; `common/fingerprints.py` is not part of this model.
- `interface_cls.get_params` and the interface constructor are not part of this model. `Started` records which interface would be constructed, and with which candidate and signature.
- The CAN packer's bit layout is not modelled. The DBC tables are not part of this model, so packed builders return the packer request, and `CreateLkasCommand` takes the packer's payload function as a parameter.
- The cereal alert enumerations are modelled only as far as the builders look at them. `VisualAlert` and `AudibleAlert` list names; the builders distinguish only `steerRequired` and `none`.
- Floating-point rounding is left out: Python floats are modelled as exact reals. The two can differ. For instance, `0.57 * 10000` is `5699.999999999999` in IEEE doubles, so the source sends a steering angle of 5699, where the exact product gives 5700.
- `ChryslerCan.CreatePathPolyFront` requires at least two coefficients, and `ChryslerCan.CreatePathPolyBack` at least four. The source would raise `IndexError` for a shorter list, and that exception is not modelled.
- `ChryslerCan.CreateLkasCommand` models the `False` that `calc_checksum` returns for an empty payload as the signal value 0, which is the value the packer's arithmetic gives it.
- A non-terminating fingerprinting session is represented by the input running out (`StillPolling` / `StillWaiting`), since a finite poll sequence cannot express a loop that never returns.

=== FILE: bytes.dfy ===
/** The byte type shared by the checksum, the message builders and the
    received frames. */
module Bytes {
  type Byte = x: int | 0 <= x < 256
}

=== FILE: car_helpers.dfy ===
/**
 Model of interface loading and car start-up in selfdrive/car/car_helpers.py:
 `load_interfaces` (model name to interface class), and `get_car`, which runs
 the fingerprinting loop, then dispatches on its result. `get_car` as written
 overwrites the fingerprinting result with a fixed candidate and signature
 (lines 93-94) before dispatching; `GetCar` models that, and
 `GetCarWithoutOverride` is the dispatch on the fingerprinting result itself.
 */
module CarHelpers {
  import opened Wrappers
  import opened Fingerprint

  /** A brand folder `selfdrive/car/<name>/` and the model names its `values.CAR` lists. */
  datatype Family = Family(name: string, models: seq<string>)

  /** The class `CarInterface` of module `selfdrive.car.<family>.interface`. */
  datatype CarInterface = CarInterface(family: string)

  /** Model name to interface class, or `None` where the import failed. */
  type Interfaces = map<string, Option<CarInterface>>

  /** The outcome of importing a family's interface module. */
  function Imported(importOk: string -> bool, family: string): (r: Option<CarInterface>)
    ensures r.Some? <==> importOk(family)
    ensures r.Some? ==> r.value.family == family
  {
    if importOk(family) then Some(CarInterface(family)) else None
  }

  /** Every model name some family lists. */
  function AllModels(families: seq<Family>): set<string> {
    set i, m | 0 <= i < |families| && m in families[i].models :: m
  }

  /** `families[i]` is the last family that lists `model`. */
  predicate LastListing(families: seq<Family>, model: string, i: int) {
    0 <= i < |families| && model in families[i].models
    && forall j :: i < j < |families| ==> model !in families[j].models
  }

  /** `load_interfaces(x)`, with the families in the dictionary's iteration
      order: every listed model maps to the import outcome of the last family
      that lists it. */
  function LoadInterfaces(families: seq<Family>, importOk: string -> bool): (r: Interfaces)
    ensures r.Keys == AllModels(families)
    ensures forall m :: m in r ==>
              exists i :: LastListing(families, m, i) && r[m] == Imported(importOk, families[i].name)
    decreases |families|
  {
    if |families| == 0 then map[]
    else
      var n := |families| - 1;
      var earlier := LoadInterfaces(families[..n], importOk);
      LoadInterfacesStep(families[..n], families[n], importOk, earlier);
      assert families == families[..n] + [families[n]];
      earlier + FamilyEntries(families[n], importOk)
  }

  /** The entries one family contributes. */
  function FamilyEntries(family: Family, importOk: string -> bool): (r: Interfaces)
    ensures r.Keys == set m | m in family.models
    ensures forall m :: m in r ==> r[m] == Imported(importOk, family.name)
  {
    map m | m in family.models :: Imported(importOk, family.name)
  }

  lemma LoadInterfacesStep(prefix: seq<Family>, last: Family, importOk: string -> bool, earlier: Interfaces)
    requires earlier.Keys == AllModels(prefix)
    requires forall m :: m in earlier ==>
               exists i :: LastListing(prefix, m, i) && earlier[m] == Imported(importOk, prefix[i].name)
    ensures var r := earlier + FamilyEntries(last, importOk);
            r.Keys == AllModels(prefix + [last])
            && forall m :: m in r ==>
                 exists i :: LastListing(prefix + [last], m, i) && r[m] == Imported(importOk, (prefix + [last])[i].name)
  {
    var families := prefix + [last];
    var n := |prefix|;
    var r := earlier + FamilyEntries(last, importOk);
    forall m | m in AllModels(families) ensures m in r {
      var i :| 0 <= i < |families| && m in families[i].models;
      if i < n {
        assert families[i] == prefix[i];
        assert m in AllModels(prefix);
      }
    }
    forall m | m in r
      ensures m in AllModels(families)
      ensures exists i :: LastListing(families, m, i) && r[m] == Imported(importOk, families[i].name)
    {
      if m in last.models {
        assert families[n] == last;
        assert LastListing(families, m, n);
      } else {
        var i :| LastListing(prefix, m, i) && earlier[m] == Imported(importOk, prefix[i].name);
        assert families[i] == prefix[i];
        assert families[n] == last;
        assert LastListing(families, m, i);
      }
    }
  }

  // ---------------------------------------------------------------------
  // get_car
  // ---------------------------------------------------------------------

  /** What `get_car` returns, or that it does not return. */
  datatype CarResult =
    | Started(iface: CarInterface, candidate: string, fingerprints: Finger)
      // `interface_cls(interface_cls.get_params(candidate, fingerprints), sendcan)`
    | Unmatched                    // `(None, None)`: no candidate and not passive
    | Unavailable(model: string)   // `(None, None)`: the matched model's import failed
    | UnknownModel(model: string)  // `interfaces[candidate]` raises KeyError
    | StillWaiting(state: FpState) // fingerprinting has not returned yet

  /** The fingerprinting timeout: two seconds when passive, none otherwise. */
  function FingerprintTimeout(passive: bool): (t: Option<real>)
    ensures passive <==> t.Some?
    ensures t.Some? ==> t.value == 2.0
  {
    if passive then Some(2.0) else None
  }

  /** The model `get_car` looks up: the candidate, or `"mock"` for a passive
      session without one. */
  function LookedUp(candidate: Option<string>, passive: bool): (r: Option<string>)
    ensures r.None? <==> candidate.None? && !passive
    ensures candidate.Some? ==> r == candidate
    ensures candidate.None? && passive ==> r == Some("mock")
  {
    if candidate.Some? then candidate
    else if passive then Some("mock")
    else None
  }

  /** Lines 97-112 of `get_car`: the dispatch on a candidate and signature. */
  function Dispatch(interfaces: Interfaces, candidate: Option<string>, fingerprints: Finger, passive: bool): (r: CarResult)
    ensures r.Unmatched? <==> LookedUp(candidate, passive).None?
    ensures !r.StillWaiting?
    ensures r.Started? ==> Some(r.candidate) == LookedUp(candidate, passive)
                           && r.candidate in interfaces && interfaces[r.candidate] == Some(r.iface)
                           && r.fingerprints == fingerprints
    ensures r.Unavailable? ==> Some(r.model) == LookedUp(candidate, passive)
                               && r.model in interfaces && interfaces[r.model].None?
    ensures r.UnknownModel? ==> Some(r.model) == LookedUp(candidate, passive) && r.model !in interfaces
  {
    match LookedUp(candidate, passive)
    case None => Unmatched
    case Some(model) =>
      if model !in interfaces then UnknownModel(model)
      else if interfaces[model].None? then Unavailable(model)
      else Started(interfaces[model].value, model, fingerprints)
  }

  /** Every model the interface table knows is started, reported unavailable,
      or (without a model) left unmatched: the dispatch is total apart from
      unknown names. */
  lemma DispatchOfKnownModel(interfaces: Interfaces, model: string, fingerprints: Finger, passive: bool)
    requires model in interfaces
    ensures var r := Dispatch(interfaces, Some(model), fingerprints, passive);
            (r.Started? <==> interfaces[model].Some?) && (r.Unavailable? <==> interfaces[model].None?)
  {
  }

  /** A started interface belongs to the last family listing the model, whose
      import succeeded. */
  lemma {:induction false} StartedInterfaceIsListed(families: seq<Family>, importOk: string -> bool,
                                                    candidate: Option<string>, fingerprints: Finger, passive: bool)
    ensures var r := Dispatch(LoadInterfaces(families, importOk), candidate, fingerprints, passive);
            r.Started? ==> exists i :: LastListing(families, r.candidate, i)
                                       && importOk(families[i].name) && r.iface == CarInterface(families[i].name)
  {
    var interfaces := LoadInterfaces(families, importOk);
    var r := Dispatch(interfaces, candidate, fingerprints, passive);
    if r.Started? {
      var i :| LastListing(families, r.candidate, i)
               && interfaces[r.candidate] == Imported(importOk, families[i].name);
      assert importOk(families[i].name) && r.iface == CarInterface(families[i].name);
    }
  }

  /** The dispatch on the fingerprinting result, without the override. */
  function DispatchFingerprint(interfaces: Interfaces, fp: FpResult, passive: bool): (r: CarResult)
    ensures fp.StillPolling? <==> r.StillWaiting?
    ensures fp.Identified? ==> r == Dispatch(interfaces, Some(fp.car), fp.finger, passive)
    ensures fp.NotIdentified? ==> r == Dispatch(interfaces, None, fp.finger, passive)
  {
    match fp
    case StillPolling(s) => StillWaiting(s)
    case Identified(car, finger) => Dispatch(interfaces, Some(car), finger, passive)
    case NotIdentified(finger) => Dispatch(interfaces, None, finger, passive)
  }

  /** The candidate that lines 93-94 substitute for the fingerprinting result. */
  const OverrideCandidate: string := "CHRYSLER PACIFICA HYBRID 2018"

  /** The signature that lines 93-94 substitute for the fingerprinting result. */
  const OverrideFingerprints: Finger := map[
      68 := 8, 257 := 5, 258 := 8, 264 := 8, 268 := 8, 270 := 8, 274 := 2, 280 := 8,
      284 := 8, 288 := 7, 290 := 6, 291 := 8, 292 := 8, 294 := 8, 300 := 8, 308 := 8,
      320 := 8, 324 := 8, 331 := 8, 332 := 8, 344 := 8, 368 := 8, 376 := 3, 384 := 8,
      388 := 4, 448 := 6, 456 := 4, 464 := 8, 469 := 8, 480 := 8, 500 := 8, 501 := 8,
      512 := 8, 514 := 8, 520 := 8, 528 := 8, 532 := 8, 544 := 8, 557 := 8, 559 := 8,
      560 := 4, 564 := 8, 571 := 3, 579 := 8, 584 := 8, 608 := 8, 624 := 8, 625 := 8,
      632 := 8, 639 := 8, 653 := 8, 654 := 8, 655 := 8, 660 := 8, 669 := 3, 671 := 8,
      672 := 8, 680 := 8, 701 := 8, 704 := 8, 705 := 8, 706 := 8, 709 := 8, 710 := 8,
      719 := 8, 720 := 6, 736 := 8, 737 := 8, 746 := 5, 760 := 8, 764 := 8, 766 := 8,
      770 := 8, 773 := 8, 779 := 8, 782 := 8, 784 := 8, 792 := 8, 799 := 8, 800 := 8,
      804 := 8, 816 := 8, 817 := 8, 820 := 8, 825 := 2, 826 := 8, 832 := 8, 838 := 2,
      848 := 8, 853 := 8, 856 := 4, 860 := 6, 863 := 8, 878 := 8, 882 := 8, 897 := 8,
      908 := 8, 924 := 8, 926 := 3, 929 := 8, 937 := 8, 938 := 8, 939 := 8, 940 := 8,
      941 := 8, 942 := 8, 943 := 8, 947 := 8, 948 := 8, 958 := 8, 959 := 8, 969 := 4,
      974 := 5, 979 := 8, 980 := 8, 981 := 8, 982 := 8, 983 := 8, 984 := 8, 992 := 8,
      993 := 7, 995 := 8, 996 := 8, 1000 := 8, 1001 := 8, 1002 := 8, 1003 := 8, 1008 := 8,
      1009 := 8, 1010 := 8, 1011 := 8, 1012 := 8, 1013 := 8, 1014 := 8, 1015 := 8, 1024 := 8,
      1025 := 8, 1026 := 8, 1031 := 8, 1033 := 8, 1050 := 8, 1059 := 8, 1082 := 8, 1083 := 8,
      1098 := 8, 1100 := 8
    ]

  /** Lines 93-94: once fingerprinting returns, its result is replaced. */
  function Override(fp: FpResult): (r: FpResult)
    ensures fp.StillPolling? ==> r == fp
    ensures !fp.StillPolling? ==> r == Identified(OverrideCandidate, OverrideFingerprints)
  {
    if fp.StillPolling? then fp else Identified(OverrideCandidate, OverrideFingerprints)
  }

  /** `get_car(logcan, sendcan, passive)` as written. */
  function GetCar(interfaces: Interfaces, eliminate: Eliminator, allKnownCars: seq<string>,
                  stPassive: real, passive: bool, polls: seq<PollInput>): (r: CarResult)
    ensures !r.Unmatched?
    ensures r.Started? ==> r.candidate == OverrideCandidate && r.fingerprints == OverrideFingerprints
    ensures r.UnknownModel? ==> OverrideCandidate !in interfaces
  {
    var fp := RunFingerprint(eliminate, allKnownCars, stPassive, FingerprintTimeout(passive), polls);
    DispatchFingerprint(interfaces, Override(fp), passive)
  }

  /** `get_car` with lines 93-94 removed. */
  function GetCarWithoutOverride(interfaces: Interfaces, eliminate: Eliminator, allKnownCars: seq<string>,
                                 stPassive: real, passive: bool, polls: seq<PollInput>): (r: CarResult)
    ensures r.Unmatched? ==> !passive
    ensures r.Started? ==> r.candidate in interfaces && interfaces[r.candidate] == Some(r.iface)
  {
    DispatchFingerprint(interfaces, RunFingerprint(eliminate, allKnownCars, stPassive, FingerprintTimeout(passive), polls), passive)
  }

  /** As written, once fingerprinting returns, `get_car` always dispatches
      the fixed Chrysler candidate with the fixed signature, never reports an
      unmatched car, and its result depends on nothing fingerprinting saw. */
  lemma GetCarIgnoresFingerprint(interfaces: Interfaces, eliminate: Eliminator, allKnownCars: seq<string>,
                                 stPassive: real, passive: bool, polls: seq<PollInput>)
    requires !RunFingerprint(eliminate, allKnownCars, stPassive, FingerprintTimeout(passive), polls).StillPolling?
    ensures var r := GetCar(interfaces, eliminate, allKnownCars, stPassive, passive, polls);
            r == Dispatch(interfaces, Some(OverrideCandidate), OverrideFingerprints, passive)
            && !r.Unmatched?
            && (r.Started? ==> r.candidate == OverrideCandidate && r.fingerprints == OverrideFingerprints)
  {
  }

  /** Without the override, an identified car with an importable interface is
      started with the signature fingerprinting collected, and an unidentified
      one is unmatched (active) or started as `"mock"` (passive). */
  lemma GetCarWithoutOverrideFollowsFingerprint(interfaces: Interfaces, eliminate: Eliminator, allKnownCars: seq<string>,
                                                stPassive: real, passive: bool, polls: seq<PollInput>)
    ensures var fp := RunFingerprint(eliminate, allKnownCars, stPassive, FingerprintTimeout(passive), polls);
            var r := GetCarWithoutOverride(interfaces, eliminate, allKnownCars, stPassive, passive, polls);
            (fp.Identified? && fp.car in interfaces && interfaces[fp.car].Some? ==>
               r == Started(interfaces[fp.car].value, fp.car, fp.finger))
            && (fp.NotIdentified? && !passive ==> r == Unmatched)
            && (fp.NotIdentified? && passive && "mock" in interfaces && interfaces["mock"].Some? ==>
               r == Started(interfaces["mock"].value, "mock", fp.finger))
  {
  }

  /** Two candidates; elimination keeps only the Toyota, which is seen on
      two polls. A frame on bus 1 is ignored. */
  const ToyotaCar: string := "TOYOTA PRIUS 2017"
  const HondaCar: string := "HONDA CIVIC 2016 TOURING"

  function KeepToyota(f: BusFrame, cs: seq<string>): (r: seq<string>)
    ensures forall c :: c in r ==> c in cs
  {
    if ToyotaCar in cs then [ToyotaCar] else []
  }

  const ToyotaPolls: seq<PollInput> :=
    [PollInput([BusFrame(0x10, [0], 0), BusFrame(0x30, [], 1), BusFrame(0x20, [1, 2], 0)], 0.0, 0.0),
     PollInput([], 0.0, 5.0)]

  const ExampleInterfaces: Interfaces :=
    map[ToyotaCar := Some(CarInterface("toyota")), OverrideCandidate := Some(CarInterface("chrysler"))]

  /** Fingerprinting identifies the Toyota on the second poll, with the
      signature of both bus-0 frames. */
  lemma ToyotaIsIdentified()
    ensures RunFingerprint(KeepToyota, [ToyotaCar, HondaCar], 0.0, None, ToyotaPolls)
         == Identified(ToyotaCar, map[0x10 := 1, 0x20 := 2])
  {
    var s0 := Init([ToyotaCar, HondaCar]);
    var frames := ToyotaPolls[0].frames;
    var a := ProcessFrame(KeepToyota, s0, frames[0]);
    assert a == FpState([ToyotaCar], map[0x10 := 1], None, true);
    var b := ProcessFrame(KeepToyota, a, frames[1]);
    assert b == a;
    var c := ProcessFrame(KeepToyota, b, frames[2]);
    assert c == FpState([ToyotaCar], map[0x10 := 1, 0x20 := 2], None, true);
    assert frames[..1][..0] == [] && frames[..1][0] == frames[0];
    assert ProcessBatch(KeepToyota, s0, frames[..1]) == a;
    assert frames[..2][..1] == frames[..1] && frames[..2][1] == frames[1];
    assert ProcessBatch(KeepToyota, s0, frames[..2]) == b;
    assert frames[..2] == frames[..|frames| - 1];
    assert ProcessBatch(KeepToyota, s0, frames) == c;
    var s1 := Advance(KeepToyota, s0, frames, 0.0);
    assert s1 == c.(st := Some(0.0));
    assert Decide(s1, 0.0, 0.0, None) == Continue;
    var s2 := Advance(KeepToyota, s1, ToyotaPolls[1].frames, 0.0);
    assert s2 == s1;
    assert Decide(s2, 5.0, 0.0, None) == Accept(ToyotaCar, map[0x10 := 1, 0x20 := 2]);
    assert ToyotaPolls[1..][1..] == [];
  }

  /** As written, `get_car` starts the Chrysler interface for that Toyota. */
  lemma OverrideDiscardsIdentifiedToyota()
    ensures GetCar(ExampleInterfaces, KeepToyota, [ToyotaCar, HondaCar], 0.0, false, ToyotaPolls)
            == Started(CarInterface("chrysler"), OverrideCandidate, OverrideFingerprints)
  {
    ToyotaIsIdentified();
  }

  /** Without the override it starts the Toyota interface with the observed signature. */
  lemma WithoutOverrideStartsToyota()
    ensures GetCarWithoutOverride(ExampleInterfaces, KeepToyota, [ToyotaCar, HondaCar], 0.0, false, ToyotaPolls)
            == Started(CarInterface("toyota"), ToyotaCar, map[0x10 := 1, 0x20 := 2])
  {
    ToyotaIsIdentified();
  }
}

=== FILE: checksum.dfy ===
/**
 Model of `calc_checksum` in selfdrive/car/chrysler/chryslercan.py: the
 bit-serial integrity code of the Chrysler LKAS and wheel-button messages.

 The source keeps its register in an unbounded Python integer that is shifted
 left on every bit and never masked; only bit 7 is ever read and the result is
 masked once at the end. This module models that as written (`SourceStep`,
 `ShiftIn`, `SourceFold`, `CalcChecksum`) and proves it equal to the ordinary
 MSB-first CRC-8 of SAE J1850 (polynomial 0x1D, initial value 0xFF, final
 complement) computed on an 8-bit register masked after every shift
 (`Crc8Step`, `Crc8Register`, `Crc8J1850`).
 */
module Checksum {
  import opened Wrappers
  import opened Bytes

  function Pow2(n: nat): (r: nat)
    ensures r >= 1
  {
    if n == 0 then 1 else 2 * Pow2(n - 1)
  }

  /** Bit `j` of `x`, that is `x & (1 << j) != 0`. */
  predicate TestBit(x: nat, j: nat) {
    (x / Pow2(j)) % 2 == 1
  }

  /** `x >> 1` */
  function Shr1(x: nat): nat {
    x / 2
  }

  /** `x & 1` */
  function Lsb(x: nat): nat {
    x % 2
  }

  /** Bitwise exclusive or of two non-negative integers (Python's `^`). */
  function Xor(a: nat, b: nat): nat
    decreases a + b
  {
    if a == 0 then b
    else if b == 0 then a
    else 2 * Xor(Shr1(a), Shr1(b)) + (if Lsb(a) == Lsb(b) then 0 else 1)
  }

  // ---------------------------------------------------------------------
  // The source as written: an unbounded register.
  // ---------------------------------------------------------------------

  /** One pass of the inner `while` loop, for the data bit `bitSet`.
      `checksum << 1` is even, so `checksum << 1 | 1` is one more. */
  function SourceStep(checksum: nat, bitSet: bool): nat {
    var topSet := TestBit(checksum, 7);
    if bitSet then
      var bitSum := if topSet then 1 else 0x1C;
      Xor(bitSum, checksum * 2 + 1)
    else
      var bitSum := if topSet then 0x1D else 0;
      Xor(bitSum, checksum * 2)
  }

  /** The inner loop over one data byte `curr`, with `iterate` passes left;
      the pass made when `iterate` drops to `j` tests `curr & (1 << j)`. */
  function ShiftIn(checksum: nat, curr: Byte, iterate: nat): nat
    requires iterate <= 8
    decreases iterate
  {
    if iterate == 0 then checksum
    else ShiftIn(SourceStep(checksum, TestBit(curr, iterate - 1)), curr, iterate - 1)
  }

  /** The outer loop: the bytes of `data`, left to right. */
  function SourceFold(checksum: nat, data: seq<Byte>): nat
    decreases |data|
  {
    if |data| == 0 then checksum
    else SourceFold(ShiftIn(checksum, data[0], 8), data[1..])
  }

  /** `~c & 0xFF` on a Python integer (two's complement of unbounded width). */
  function Complement8(c: int): Byte {
    (-c - 1) % 256
  }

  // ---------------------------------------------------------------------
  // Reference: CRC-8 / SAE J1850 on a masked 8-bit register.
  // ---------------------------------------------------------------------

  /** The bits of a byte, most significant first. */
  function ByteBits(x: Byte): (bits: seq<bool>)
    ensures |bits| == 8
    ensures forall i :: 0 <= i < 8 ==> bits[i] == TestBit(x, 7 - i)
  {
    [TestBit(x, 7), TestBit(x, 6), TestBit(x, 5), TestBit(x, 4),
     TestBit(x, 3), TestBit(x, 2), TestBit(x, 1), TestBit(x, 0)]
  }

  /** The bit stream of a message: its bytes in order, each MSB first. */
  function MessageBits(data: seq<Byte>): (bits: seq<bool>)
    ensures |bits| == 8 * |data|
  {
    if |data| == 0 then [] else ByteBits(data[0]) + MessageBits(data[1..])
  }

  /** One step of an MSB-first CRC with polynomial 0x1D on an 8-bit register:
      shift, mask, and subtract the polynomial when the bit shifted out
      differs from the data bit. */
  function Crc8Step(r: Byte, bit: bool): Byte {
    var feedback := if TestBit(r, 7) != bit then 0x1D else 0;
    XorBound((r * 2) % 256, feedback, 8);
    Xor((r * 2) % 256, feedback)
  }

  function Crc8Register(r: Byte, bits: seq<bool>): Byte
    decreases |bits|
  {
    if |bits| == 0 then r else Crc8Register(Crc8Step(r, bits[0]), bits[1..])
  }

  /** CRC-8 of SAE J1850: initial register 0xFF, final complement. */
  function Crc8J1850(data: seq<Byte>): Byte {
    255 - Crc8Register(0xFF, MessageBits(data))
  }

  // ---------------------------------------------------------------------
  // The model of `calc_checksum`.
  // ---------------------------------------------------------------------

  /** `calc_checksum`: no value (the source returns `False`) for an empty
      list, otherwise the complemented low byte of the unmasked register,
      which is exactly the J1850 CRC-8 of the data. */
  function CalcChecksum(data: seq<Byte>): (r: Option<Byte>)
    ensures r.None? <==> |data| == 0
    ensures r.Some? ==> r.value == Crc8J1850(data)
  {
    if |data| == 0 then None
    else
      CalcChecksumIsCrc8J1850(data);
      Some(Complement8(SourceFold(0xFF, data)))
  }

  // ---------------------------------------------------------------------
  // Lemmas.
  // ---------------------------------------------------------------------

  lemma XorUnfold(a: nat, b: nat)
    ensures Xor(a, b) == 2 * Xor(a / 2, b / 2) + (if a % 2 == b % 2 then 0 else 1)
  {
  }

  lemma {:induction false} XorBound(a: nat, b: nat, k: nat)
    requires a < Pow2(k) && b < Pow2(k)
    ensures Xor(a, b) < Pow2(k)
  {
    XorUnfold(a, b);
    if k > 0 {
      XorBound(a / 2, b / 2, k - 1);
    }
  }

  /** Division facts for splitting off the lowest bit below a power of two. */
  lemma SplitLowBit(a: nat, m: nat)
    requires m >= 1
    ensures a % (2 * m) == 2 * ((a / 2) % m) + a % 2
  {
    var h, low := a / 2, a % 2;
    var q, r := h / m, h % m;
    DivModUnique(a, 2, h, low);
    DivModUnique(h, m, q, r);
    assert a == (2 * m) * q + (2 * r + low);
    DivModUnique(a, 2 * m, q, 2 * r + low);
  }

  /** `2 * y + low` halves to `y` with remainder `low`. */
  lemma Halve(y: int, low: int)
    requires 0 <= low < 2
    ensures (2 * y + low) / 2 == y && (2 * y + low) % 2 == low
  {
    DivModUnique(2 * y + low, 2, y, low);
  }

  /** Euclidean division is unique: the quotient and remainder are determined. */
  lemma DivModUnique(a: int, n: int, q: int, r: int)
    requires n > 0 && a == n * q + r && 0 <= r < n
    ensures a / n == q && a % n == r
  {
    var q', r' := a / n, a % n;
    assert n * q + r == n * q' + r';
    if q > q' {
      assert n * (q - q') == n * q - n * q';
      MulAtLeast(n, q - q');
    } else if q < q' {
      assert n * (q' - q) == n * q' - n * q;
      MulAtLeast(n, q' - q);
    }
  }

  lemma MulAtLeast(n: int, d: int)
    requires n > 0 && d >= 1
    ensures n * d >= n
  {
    assert n * d == n * (d - 1) + n;
  }

  /** Masking commutes with exclusive or: the low `k` bits of `a ^ b` depend
      only on the low `k` bits of `a` and `b`. */
  lemma {:induction false} XorMod(a: nat, b: nat, k: nat)
    ensures Xor(a, b) % Pow2(k) == Xor(a % Pow2(k), b % Pow2(k))
  {
    if k == 0 {
      DivModUnique(a, 1, a, 0);
      DivModUnique(b, 1, b, 0);
      DivModUnique(Xor(a, b), 1, Xor(a, b), 0);
    } else {
      XorMod(a / 2, b / 2, k - 1);
      XorModStep(a, b, Pow2(k - 1));
    }
  }

  /** The inductive step of `XorMod`: from the halves below `m` to the whole below `2 * m`. */
  lemma XorModStep(a: nat, b: nat, m: nat)
    requires m >= 1
    requires Xor(a / 2, b / 2) % m == Xor((a / 2) % m, (b / 2) % m)
    ensures Xor(a, b) % (2 * m) == Xor(a % (2 * m), b % (2 * m))
  {
    XorOfMasked(a, b, m);
    MaskOfXor(a, b, m);
  }

  /** `(a ^ b) % 2m` in terms of the halves' exclusive or. */
  lemma MaskOfXor(a: nat, b: nat, m: nat)
    requires m >= 1
    ensures Xor(a, b) % (2 * m) == 2 * (Xor(a / 2, b / 2) % m) + (if a % 2 == b % 2 then 0 else 1)
  {
    var x := Xor(a / 2, b / 2);
    var bit := if a % 2 == b % 2 then 0 else 1;
    XorUnfold(a, b);
    SplitLowBit(2 * x + bit, m);
    Halve(x, bit);
  }

  /** `(a % 2m) ^ (b % 2m)` in terms of the halves taken below `m`. */
  lemma XorOfMasked(a: nat, b: nat, m: nat)
    requires m >= 1
    ensures Xor(a % (2 * m), b % (2 * m))
         == 2 * Xor((a / 2) % m, (b / 2) % m) + (if a % 2 == b % 2 then 0 else 1)
  {
    SplitLowBit(a, m);
    SplitLowBit(b, m);
    XorOfSplit(a % (2 * m), b % (2 * m), (a / 2) % m, (b / 2) % m, a % 2, b % 2);
  }

  /** The exclusive or of two numbers given by their halves and low bits. */
  lemma XorOfSplit(x: nat, y: nat, hx: nat, hy: nat, lx: nat, ly: nat)
    requires lx < 2 && ly < 2 && x == 2 * hx + lx && y == 2 * hy + ly
    ensures Xor(x, y) == 2 * Xor(hx, hy) + (if lx == ly then 0 else 1)
  {
    Halve(hx, lx);
    Halve(hy, ly);
    XorUnfold(x, y);
  }

  /** `Xor` is bitwise: bit `j` of `a ^ b` is set exactly when bit `j` is
      set in one operand and not the other. */
  lemma {:induction false} XorIsBitwise(a: nat, b: nat, j: nat)
    ensures TestBit(Xor(a, b), j) <==> TestBit(a, j) != TestBit(b, j)
    decreases j
  {
    var low := if a % 2 == b % 2 then 0 else 1;
    XorUnfold(a, b);
    Halve(Xor(a / 2, b / 2), low);
    if j > 0 {
      XorIsBitwise(a / 2, b / 2, j - 1);
      ShiftDiv(a, Pow2(j - 1));
      ShiftDiv(b, Pow2(j - 1));
      ShiftDiv(Xor(a, b), Pow2(j - 1));
    }
  }

  /** Dividing by `2p` is halving, then dividing by `p`. */
  lemma ShiftDiv(y: nat, p: nat)
    requires p >= 1
    ensures y / (2 * p) == (y / 2) / p
  {
    var h, low := y / 2, y % 2;
    var q, r := h / p, h % p;
    DivModUnique(y, 2, h, low);
    DivModUnique(h, p, q, r);
    assert y == (2 * p) * q + (2 * r + low);
    DivModUnique(y, 2 * p, q, 2 * r + low);
  }

  lemma XorCommutes(a: nat, b: nat)
    ensures Xor(a, b) == Xor(b, a)
    decreases a + b
  {
    if a != 0 || b != 0 {
      XorCommutes(a / 2, b / 2);
    }
  }

  lemma XorZeroLeft(b: nat)
    ensures Xor(0, b) == b
  {
  }

  /** Reading bit 7 of the unmasked register is reading bit 7 of its low byte. */
  lemma TopBitOfLowByte(c: nat)
    ensures TestBit(c, 7) == TestBit(c % 256, 7)
  {
    assert Pow2(7) == 128;
    var q, low := c / 256, c % 256;
    var h, r := low / 128, low % 128;
    DivModUnique(c, 256, q, low);
    DivModUnique(low, 128, h, r);
    DivModUnique(c, 128, 2 * q + h, r);
    Halve(q, h);
    DivModUnique(h, 2, 0, h);
  }

  lemma ShiftLowByte(c: nat)
    ensures (c * 2) % 256 == ((c % 256) * 2) % 256
  {
    var q, low := c / 256, c % 256;
    DivModUnique(c, 256, q, low);
    if low < 128 {
      DivModUnique(c * 2, 256, 2 * q, low * 2);
      DivModUnique(low * 2, 256, 0, low * 2);
    } else {
      DivModUnique(c * 2, 256, 2 * q + 1, low * 2 - 256);
      DivModUnique(low * 2, 256, 1, low * 2 - 256);
    }
  }

  /** One unmasked step, masked afterwards, is one masked CRC-8 step. */
  lemma StepMatchesCrc8Step(c: nat, bit: bool)
    ensures SourceStep(c, bit) % 256 == Crc8Step(c % 256, bit)
  {
    TopBitOfLowByte(c);
    if TestBit(c, 7) == bit {
      StepWithoutFeedback(c, bit);
    } else {
      StepWithFeedback(c, bit);
    }
  }

  /** When the bit shifted out equals the data bit, both registers only shift. */
  lemma StepWithoutFeedback(c: nat, bit: bool)
    requires TestBit(c, 7) == bit && TestBit(c % 256, 7) == bit
    ensures SourceStep(c, bit) % 256 == Crc8Step(c % 256, bit)
  {
    var low := (c * 2) % 256;
    ShiftLowByte(c);
    assert Crc8Step(c % 256, bit) == Xor(low, 0);
    XorCommutes(low, 0);
    XorZeroLeft(low);
    if bit {
      XorOneOdd(c);
    } else {
      XorZeroLeft(c * 2);
    }
    assert SourceStep(c, bit) == c * 2;
  }

  /** Otherwise both registers take the polynomial 0x1D after the shift. */
  lemma StepWithFeedback(c: nat, bit: bool)
    requires TestBit(c, 7) != bit && TestBit(c % 256, 7) != bit
    ensures SourceStep(c, bit) % 256 == Crc8Step(c % 256, bit)
  {
    var low := (c * 2) % 256;
    ShiftLowByte(c);
    assert Crc8Step(c % 256, bit) == Xor(low, 0x1D);
    if bit {
      Xor1COdd(c);
    }
    assert SourceStep(c, bit) == Xor(0x1D, c * 2);
    Pow2Eight();
    XorMod(0x1D, c * 2, 8);
    assert 0x1D % 256 == 0x1D;
    XorCommutes(0x1D, low);
  }

  lemma Pow2Eight()
    ensures Pow2(8) == 256
  {
  }

  lemma XorOneOdd(c: nat)
    ensures Xor(1, c * 2 + 1) == c * 2
  {
    assert (c * 2 + 1) / 2 == c;
    XorUnfold(1, c * 2 + 1);
    XorZeroLeft(c);
  }

  lemma Xor1COdd(c: nat)
    ensures Xor(0x1C, c * 2 + 1) == Xor(0x1D, c * 2)
  {
    assert (c * 2 + 1) / 2 == c && (c * 2) / 2 == c;
    XorUnfold(0x1C, c * 2 + 1);
    XorUnfold(0x1D, c * 2);
  }

  lemma {:induction false} ShiftInMatchesCrc8(c: nat, curr: Byte, n: nat)
    requires n <= 8
    decreases n
    ensures ShiftIn(c, curr, n) % 256 == Crc8Register(c % 256, ByteBits(curr)[8 - n..])
  {
    if n > 0 {
      var bit := TestBit(curr, n - 1);
      var bits := ByteBits(curr)[8 - n..];
      var rest := ByteBits(curr)[8 - (n - 1)..];
      assert bits[0] == bit && bits[1..] == rest;
      var c1 := SourceStep(c, bit);
      StepMatchesCrc8Step(c, bit);
      ShiftInMatchesCrc8(c1, curr, n - 1);
      assert ShiftIn(c, curr, n) == ShiftIn(c1, curr, n - 1);
      assert Crc8Register(c % 256, bits) == Crc8Register(Crc8Step(c % 256, bit), rest);
    }
  }

  lemma {:induction false} RegisterAppend(r: Byte, xs: seq<bool>, ys: seq<bool>)
    ensures Crc8Register(r, xs + ys) == Crc8Register(Crc8Register(r, xs), ys)
    decreases |xs|
  {
    if |xs| > 0 {
      assert (xs + ys)[1..] == xs[1..] + ys;
      RegisterAppend(Crc8Step(r, xs[0]), xs[1..], ys);
    } else {
      assert xs + ys == ys;
    }
  }

  /** Masking the register after every shift changes nothing: the low byte of
      the source's unbounded register is the masked CRC-8 register. */
  lemma {:induction false} UnmaskedRegisterMatchesMasked(c: nat, data: seq<Byte>)
    ensures SourceFold(c, data) % 256 == Crc8Register(c % 256, MessageBits(data))
    decreases |data|
  {
    if |data| > 0 {
      var c' := ShiftIn(c, data[0], 8);
      var head := ByteBits(data[0]);
      var rest := MessageBits(data[1..]);
      assert MessageBits(data) == head + rest;
      assert head[8 - 8..] == head;
      ShiftInMatchesCrc8(c, data[0], 8);
      RegisterAppend(c % 256, head, rest);
      UnmaskedRegisterMatchesMasked(c', data[1..]);
      calc {
        SourceFold(c, data) % 256;
        SourceFold(c', data[1..]) % 256;
        Crc8Register(c' % 256, rest);
        Crc8Register(Crc8Register(c % 256, head), rest);
        Crc8Register(c % 256, MessageBits(data));
      }
    }
  }

  /** The source's final `~checksum & 0xFF` of its unmasked register is the
      J1850 CRC-8 of the data. */
  lemma CalcChecksumIsCrc8J1850(data: seq<Byte>)
    ensures Complement8(SourceFold(0xFF, data)) == Crc8J1850(data)
  {
    var checksum := SourceFold(0xFF, data);
    UnmaskedRegisterMatchesMasked(0xFF, data);
    assert 0xFF % 256 == 0xFF;
    ComplementIsByteComplement(checksum);
    assert Complement8(checksum) == 255 - Crc8Register(0xFF, MessageBits(data));
  }

  lemma ComplementIsByteComplement(c: int)
    ensures Complement8(c) == 255 - c % 256
  {
    var q := c / 256;
    DivModUnique(c, 256, q, c % 256);
    DivModUnique(-c - 1, 256, -q - 1, 255 - c % 256);
  }

  // A worked value: the sixteen register values of the CRC of `01 00` (the
  // wheel-button frame at counter 0), two steps per lemma. These lemmas only
  // evaluate constants, split so that each stays small; the general proofs
  // are `UnmaskedRegisterMatchesMasked`, `CalcChecksumIsCrc8J1850`, `XorMod`,
  // `RegisterAppend`, `StepMatchesCrc8Step` and `XorBound` above.

  lemma WheelFrameZeroSteps1()
    ensures Crc8Step(255, false) == 227
    ensures Crc8Step(227, false) == 219
  {
    assert TestBit(255, 7) && (255 * 2) % 256 == 254 && Xor(254, 29) == 227;
    assert TestBit(227, 7) && (227 * 2) % 256 == 198 && Xor(198, 29) == 219;
  }

  lemma WheelFrameZeroSteps2()
    ensures Crc8Step(219, false) == 171
    ensures Crc8Step(171, false) == 75
  {
    assert TestBit(219, 7) && (219 * 2) % 256 == 182 && Xor(182, 29) == 171;
    assert TestBit(171, 7) && (171 * 2) % 256 == 86 && Xor(86, 29) == 75;
  }

  lemma WheelFrameZeroSteps3()
    ensures Crc8Step(75, false) == 150
    ensures Crc8Step(150, false) == 49
  {
    assert !TestBit(75, 7) && (75 * 2) % 256 == 150 && Xor(150, 0) == 150;
    assert TestBit(150, 7) && (150 * 2) % 256 == 44 && Xor(44, 29) == 49;
  }

  lemma WheelFrameZeroSteps4()
    ensures Crc8Step(49, false) == 98
    ensures Crc8Step(98, true) == 217
  {
    assert !TestBit(49, 7) && (49 * 2) % 256 == 98 && Xor(98, 0) == 98;
    assert !TestBit(98, 7) && (98 * 2) % 256 == 196 && Xor(196, 29) == 217;
  }

  lemma WheelFrameZeroSteps5()
    ensures Crc8Step(217, false) == 175
    ensures Crc8Step(175, false) == 67
  {
    assert TestBit(217, 7) && (217 * 2) % 256 == 178 && Xor(178, 29) == 175;
    assert TestBit(175, 7) && (175 * 2) % 256 == 94 && Xor(94, 29) == 67;
  }

  lemma WheelFrameZeroSteps6()
    ensures Crc8Step(67, false) == 134
    ensures Crc8Step(134, false) == 17
  {
    assert !TestBit(67, 7) && (67 * 2) % 256 == 134 && Xor(134, 0) == 134;
    assert TestBit(134, 7) && (134 * 2) % 256 == 12 && Xor(12, 29) == 17;
  }

  lemma WheelFrameZeroSteps7()
    ensures Crc8Step(17, false) == 34
    ensures Crc8Step(34, false) == 68
  {
    assert !TestBit(17, 7) && (17 * 2) % 256 == 34 && Xor(34, 0) == 34;
    assert !TestBit(34, 7) && (34 * 2) % 256 == 68 && Xor(68, 0) == 68;
  }

  lemma WheelFrameZeroSteps8()
    ensures Crc8Step(68, false) == 136
    ensures Crc8Step(136, false) == 13
  {
    assert !TestBit(68, 7) && (68 * 2) % 256 == 136 && Xor(136, 0) == 136;
    assert TestBit(136, 7) && (136 * 2) % 256 == 16 && Xor(16, 29) == 13;
  }

  /** The register after the byte `01`, from the initial 0xFF. */
  lemma WheelFrameZeroFirstByte()
    ensures Crc8Register(255, ByteBits(0x01)) == 217
  {
    var bits := [false, false, false, false, false, false, false, true];
    assert ByteBits(0x01) == bits;
    WheelFrameZeroSteps1();
    WheelFrameZeroSteps2();
    WheelFrameZeroSteps3();
    WheelFrameZeroSteps4();
    assert Crc8Register(217, bits[8..]) == 217;
    assert Crc8Register(98, bits[7..]) == 217;
    assert Crc8Register(49, bits[6..]) == 217;
    assert Crc8Register(150, bits[5..]) == 217;
    assert Crc8Register(75, bits[4..]) == 217;
    assert Crc8Register(171, bits[3..]) == 217;
    assert Crc8Register(219, bits[2..]) == 217;
    assert Crc8Register(227, bits[1..]) == 217;
    assert Crc8Register(255, bits[0..]) == 217;
  }

  /** The register after the byte `00`, from 217. */
  lemma WheelFrameZeroSecondByte()
    ensures Crc8Register(217, ByteBits(0x00)) == 13
  {
    var bits := [false, false, false, false, false, false, false, false];
    assert ByteBits(0x00) == bits;
    WheelFrameZeroSteps5();
    WheelFrameZeroSteps6();
    WheelFrameZeroSteps7();
    WheelFrameZeroSteps8();
    assert Crc8Register(13, bits[8..]) == 13;
    assert Crc8Register(136, bits[7..]) == 13;
    assert Crc8Register(68, bits[6..]) == 13;
    assert Crc8Register(34, bits[5..]) == 13;
    assert Crc8Register(17, bits[4..]) == 13;
    assert Crc8Register(134, bits[3..]) == 13;
    assert Crc8Register(67, bits[2..]) == 13;
    assert Crc8Register(175, bits[1..]) == 13;
    assert Crc8Register(217, bits[0..]) == 13;
  }

  /** The CRC-8 of `01 00`, the wheel-button frame of frame 0. */
  lemma Crc8OfWheelFrameZero()
    ensures Crc8J1850([0x01, 0x00]) == 0xF2
  {
    assert MessageBits([0x01, 0x00]) == ByteBits(0x01) + ByteBits(0x00) by {
      assert MessageBits([0x00]) == ByteBits(0x00);
    }
    RegisterAppend(0xFF, ByteBits(0x01), ByteBits(0x00));
    WheelFrameZeroFirstByte();
    WheelFrameZeroSecondByte();
  }

  /** `calc_checksum([0x01, 0x00])` is 0xF2, so frame 0 sends `01 00 F2`. */
  lemma WheelButtonsFrameZeroChecksum()
    ensures CalcChecksum([0x01, 0x00]) == Some(0xF2)
  {
    Crc8OfWheelFrameZero();
  }
}

=== FILE: chryslercan.dfy ===
/**
 Model of the outbound message builders of selfdrive/car/chrysler/chryslercan.py.

 Builders that return a raw frame produce a `CanMsg` directly. Builders that go
 through the message packer (`packer.make_can_msg(name, bus, values)`, which
 lays named signals out as bytes from a message-definition table) produce a
 `Packed` request carrying exactly the name, bus and signal values handed to
 the packer; the packer itself is not part of this model. The LKAS command
 needs the packer's bytes for its checksum, so it takes the packer's payload
 function as a parameter.
 */
module ChryslerCan {
  import opened Wrappers
  import opened Bytes
  import opened Checksum

  /** The HUD visual alerts of the car-control message. */
  datatype VisualAlert =
    | none | fcw | steerRequired | brakePressed | wrongGear | seatbeltUnbuckled | speedTooHigh

  /** The HUD audible alerts of the car-control message. */
  datatype AudibleAlert =
    | none | chimeEngage | chimeDisengage | chimeError
    | chimeWarning1 | chimeWarning2 | chimeWarningRepeat | chimePrompt

  /** A CAN frame as the send queue takes it: `[address, busTime, data, src]`. */
  datatype CanMsg = CanMsg(address: nat, busTime: int, data: seq<Byte>, src: int)

  /** Signal name to value, the `values` dictionary handed to the packer. */
  type Signals = map<string, int>

  /** An outbound message: a raw frame, or a request to the packer. */
  datatype Outbound = Raw(msg: CanMsg) | Packed(name: string, bus: int, values: Signals)

  /** The packer's payload for a message name, bus and signal values. */
  type Packer = (string, int, Signals) -> seq<Byte>

  /** `make_can_msg`: a raw frame on bus 0 with bus time 0. */
  function MakeCanMsg(addr: nat, dat: seq<Byte>): (r: CanMsg)
    ensures r.address == addr && r.data == dat
    ensures r.busTime == 0 && r.src == 0
  {
    CanMsg(addr, 0, dat, 0)
  }

  // ---------------------------------------------------------------------
  // LKAS_HUD (0x2a6)
  // ---------------------------------------------------------------------

  const LkasHudAddress: nat := 0x2a6

  /** The fixed payload sent while the driver is asked to steer. */
  const SteerRequiredHud: seq<Byte> := [0x00, 0x00, 0x00, 0x03, 0x00, 0x00, 0x00, 0x00]

  /** The gears in which the lane-keeping icon reflects the LKAS state. */
  predicate ShowsLkasState(gear: string) {
    gear in {"drive", "reverse", "low"}
  }

  /** `create_lkas_hud` */
  function CreateLkasHud(gear: string, lkasActive: bool, hudAlert: VisualAlert,
                         hudCount: int, lkasCarModel: int): (r: Outbound)
    ensures hudAlert == VisualAlert.steerRequired ==>
              r == Raw(CanMsg(LkasHudAddress, 0, SteerRequiredHud, 0))
    ensures hudAlert != VisualAlert.steerRequired ==>
              && r.Packed? && r.name == "LKAS_HUD" && r.bus == 0
              && r.values.Keys == {"LKAS_ICON_COLOR", "CAR_MODEL", "LKAS_LANE_LINES", "LKAS_ALERTS"}
              && r.values["LKAS_ALERTS"] == (if hudCount < 4 then 1 else 0)
              && r.values["CAR_MODEL"] == lkasCarModel
              && (r.values["LKAS_ICON_COLOR"], r.values["LKAS_LANE_LINES"])
                 == (if ShowsLkasState(gear) && lkasActive then (2, 6) else (1, 1))
  {
    if hudAlert == VisualAlert.steerRequired then
      Raw(MakeCanMsg(LkasHudAddress, SteerRequiredHud))
    else
      var alerts := if hudCount < 1 * 4 then 1 else 0;
      var (color, lines) :=
        if ShowsLkasState(gear) then (if lkasActive then (2, 6) else (1, 1))
        else (1, 1);
      Packed("LKAS_HUD", 0, map[
        "LKAS_ICON_COLOR" := color,
        "CAR_MODEL" := lkasCarModel,
        "LKAS_LANE_LINES" := lines,
        "LKAS_ALERTS" := alerts])
  }

  /** With the steer-required alert the HUD frame ignores every other input. */
  lemma SteerRequiredHudIgnoresState(gear1: string, active1: bool, count1: int, model1: int,
                                     gear2: string, active2: bool, count2: int, model2: int)
    ensures CreateLkasHud(gear1, active1, VisualAlert.steerRequired, count1, model1)
         == CreateLkasHud(gear2, active2, VisualAlert.steerRequired, count2, model2)
    ensures CreateLkasHud(gear1, active1, VisualAlert.steerRequired, count1, model1).msg.data[3] == 3
  {
  }

  // ---------------------------------------------------------------------
  // LKAS_COMMAND (0x292)
  // ---------------------------------------------------------------------

  /** The signals of the first packing, before the checksum is known. */
  function LkasCommandValues(applySteer: int, movingFast: bool, frame: int): Signals {
    map[
      "LKAS_STEERING_TORQUE" := applySteer,
      "LKAS_HIGH_TORQUE" := if movingFast then 1 else 0,
      "COUNTER" := frame % 0x10]
  }

  /** Python's `dat[:-1]`: everything but the last element, empty when empty. */
  function DropLast(dat: seq<Byte>): (r: seq<Byte>)
    ensures |dat| > 0 ==> dat == r + [dat[|dat| - 1]]
    ensures |dat| == 0 ==> r == []
  {
    if |dat| == 0 then [] else dat[..|dat| - 1]
  }

  /** The value the packer receives for `CHECKSUM`: the checksum, or Python's
      `False` (0 in the packer's arithmetic) when `calc_checksum` fails. */
  function ChecksumSignal(c: Option<Byte>): int {
    c.GetOr(0)
  }

  /** `create_lkas_command` */
  function CreateLkasCommand(pack: Packer, applySteer: int, movingFast: bool, frame: int): (r: Outbound)
    ensures r.Packed? && r.name == "LKAS_COMMAND" && r.bus == 0
    ensures r.values.Keys == {"LKAS_STEERING_TORQUE", "LKAS_HIGH_TORQUE", "COUNTER", "CHECKSUM"}
    ensures r.values["LKAS_STEERING_TORQUE"] == applySteer
    ensures r.values["LKAS_HIGH_TORQUE"] in {0, 1}
    ensures r.values["LKAS_HIGH_TORQUE"] == 1 <==> movingFast
    ensures 0 <= r.values["COUNTER"] < 16 && r.values["COUNTER"] % 16 == frame % 16
    ensures var first := pack("LKAS_COMMAND", 0, r.values - {"CHECKSUM"});
            && (|first| >= 2 ==> r.values["CHECKSUM"] == Crc8J1850(first[..|first| - 1]))
            && (|first| < 2 ==> r.values["CHECKSUM"] == 0)
  {
    var values := LkasCommandValues(applySteer, movingFast, frame);
    var dat := DropLast(pack("LKAS_COMMAND", 0, values));
    var checksum := CalcChecksum(dat);
    var values' := values["CHECKSUM" := ChecksumSignal(checksum)];
    assert values' - {"CHECKSUM"} == values;
    Packed("LKAS_COMMAND", 0, values')
  }

  /** The command frame depends on the frame index only through its 4-bit counter. */
  lemma LkasCommandCounterPeriodic(pack: Packer, applySteer: int, movingFast: bool, frame: int)
    ensures CreateLkasCommand(pack, applySteer, movingFast, frame + 16)
         == CreateLkasCommand(pack, applySteer, movingFast, frame)
  {
    DivModUnique(frame, 16, frame / 16, frame % 16);
    DivModUnique(frame + 16, 16, frame / 16 + 1, frame % 16);
    assert LkasCommandValues(applySteer, movingFast, frame + 16)
        == LkasCommandValues(applySteer, movingFast, frame);
  }

  // ---------------------------------------------------------------------
  // Chimes (0x339)
  // ---------------------------------------------------------------------

  const ChimeAddress: nat := 0x339

  /** `create_chimes` */
  function CreateChimes(audibleAlert: AudibleAlert): (r: CanMsg)
    ensures r.address == ChimeAddress && r.src == 0 && r.busTime == 0
    ensures audibleAlert == AudibleAlert.none <==> r.data == [0x00, 0x50]
    ensures audibleAlert != AudibleAlert.none <==> r.data == [0x4f, 0x55]
  {
    if audibleAlert == AudibleAlert.none then MakeCanMsg(ChimeAddress, [0x00, 0x50])
    else MakeCanMsg(ChimeAddress, [0x4f, 0x55])
  }

  /** The chime builder has exactly two outputs: silence, and one chime for every alert. */
  lemma ChimesHaveTwoOutputs(a: AudibleAlert, b: AudibleAlert)
    ensures (CreateChimes(a) == CreateChimes(b)) <==> ((a == AudibleAlert.none) == (b == AudibleAlert.none))
  {
  }

  // ---------------------------------------------------------------------
  // WHEEL_BUTTONS (0x23b)
  // ---------------------------------------------------------------------

  const WheelButtonsAddress: nat := 0x23b

  /** `(frame % 10) << 4`: a decimal counter in the high nibble. */
  function WheelCounter(frame: int): (c: Byte)
    ensures c % 16 == 0 && c <= 0x90 && c / 16 == frame % 10
  {
    var k := frame % 10;
    assert 0 <= k < 10;
    k * 16
  }

  /** The checksum byte of a wheel-button frame. */
  function WheelChecksum(counter: Byte): (c: Byte)
    ensures c == Crc8J1850([0x01, counter])
  {
    CalcChecksum([0x01, counter]).value
  }

  /** `create_wheel_buttons`: the ACC-cancel request, a 4-bit counter in the
      high nibble of the second byte, and the checksum of the first two. */
  function CreateWheelButtons(frame: int): (r: CanMsg)
    ensures r.address == WheelButtonsAddress && r.src == 0 && r.busTime == 0
    ensures |r.data| == 3 && r.data[0] == 0x01
    ensures r.data[1] % 16 == 0 && r.data[1] <= 0x90 && r.data[1] / 16 == frame % 10
    ensures r.data[2] == Crc8J1850(r.data[..2])
  {
    var start := [0x01];
    var dat := start + [WheelCounter(frame)];
    assert (dat + [WheelChecksum(dat[1])])[..2] == dat == [0x01, dat[1]];
    MakeCanMsg(WheelButtonsAddress, dat + [WheelChecksum(dat[1])])
  }

  /** The wheel-button frame repeats with period 10 in the frame index. */
  lemma WheelButtonsPeriodic(frame: int)
    ensures CreateWheelButtons(frame + 10) == CreateWheelButtons(frame)
  {
    DivModUnique(frame, 10, frame / 10, frame % 10);
    DivModUnique(frame + 10, 10, frame / 10 + 1, frame % 10);
    assert WheelCounter(frame + 10) == WheelCounter(frame);
  }

  /** Frame 0, and every tenth frame after it, sends `01 00 F2`. */
  lemma WheelButtonsFrameZero(frame: int)
    requires frame % 10 == 0
    ensures CreateWheelButtons(frame).data == [0x01, 0x00, 0xF2]
  {
    Crc8OfWheelFrameZero();
    var r := CreateWheelButtons(frame);
    assert r.data[..2] == [0x01, 0x00];
  }

  // ---------------------------------------------------------------------
  // Path polynomial and steering angle telemetry
  // ---------------------------------------------------------------------

  /** Python's `int(x)` on a number: truncation toward zero. */
  function Trunc(x: real): (r: int)
    ensures x >= 0.0 ==> 0.0 <= r as real <= x < r as real + 1.0
    ensures x < 0.0 ==> r as real - 1.0 < x <= r as real <= 0.0
  {
    if x >= 0.0 then x.Floor else -((-x).Floor)
  }

  function Abs(x: int): nat {
    if x < 0 then -x else x
  }

  function AbsReal(x: real): real {
    if x < 0.0 then -x else x
  }

  /** `int(bool(x > 0))`: 1 for a strictly positive value, 0 for zero and negatives. */
  function SignBit(x: real): (r: int)
    ensures r in {0, 1}
    ensures r == 1 <==> x > 0.0
  {
    if x > 0.0 then 1 else 0
  }

  /** `int(abs(int(x * scale)))`: the truncated magnitude of a scaled value. */
  function ScaledMagnitude(x: real, scale: real): nat {
    Abs(Trunc(x * scale))
  }

  /** Truncating then taking the magnitude is taking the magnitude then truncating. */
  lemma TruncCommutesWithAbs(x: real)
    ensures Abs(Trunc(x)) == Trunc(AbsReal(x))
    ensures Trunc(-x) == -Trunc(x)
  {
  }

  /** `create_openpilot_path_poly_front`: the third- and second-order path coefficients. */
  function CreatePathPolyFront(frame: int, poly: seq<real>, prob: real, canName: string): (r: Outbound)
    requires |poly| >= 2
    ensures r.Packed? && r.name == canName && r.bus == 0
    ensures r.values.Keys == {"PROB", "THIRD_ORDER_SIGN", "THIRD_ORDER", "SECOND_ORDER_SIGN", "SECOND_ORDER", "COUNTER"}
    ensures r.values["PROB"] == Trunc(prob * 10.0)
    ensures r.values["THIRD_ORDER_SIGN"] == (if poly[0] > 0.0 then 1 else 0)
    ensures r.values["SECOND_ORDER_SIGN"] == (if poly[1] > 0.0 then 1 else 0)
    ensures r.values["THIRD_ORDER"] == Trunc(AbsReal(poly[0] * 100000000.0)) >= 0
    ensures r.values["SECOND_ORDER"] == Trunc(AbsReal(poly[1] * 1000000.0)) >= 0
    ensures 0 <= r.values["COUNTER"] < 256 && r.values["COUNTER"] % 256 == frame % 256
  {
    TruncCommutesWithAbs(poly[0] * 100000000.0);
    TruncCommutesWithAbs(poly[1] * 1000000.0);
    Packed(canName, 0, map[
      "PROB" := Trunc(prob * 10.0),
      "THIRD_ORDER_SIGN" := SignBit(poly[0]),
      "THIRD_ORDER" := ScaledMagnitude(poly[0], 100000000.0),
      "SECOND_ORDER_SIGN" := SignBit(poly[1]),
      "SECOND_ORDER" := ScaledMagnitude(poly[1], 1000000.0),
      "COUNTER" := frame % 256])
  }

  /** `create_openpilot_path_poly_back`: the first- and zero-order path coefficients. */
  function CreatePathPolyBack(frame: int, poly: seq<real>, prob: real, canName: string): (r: Outbound)
    requires |poly| >= 4
    ensures r.Packed? && r.name == canName && r.bus == 0
    ensures r.values.Keys == {"FIRST_ORDER_SIGN", "FIRST_ORDER", "ZERO_ORDER_SIGN", "ZERO_ORDER", "COUNTER"}
    ensures r.values["FIRST_ORDER_SIGN"] == (if poly[2] > 0.0 then 1 else 0)
    ensures r.values["ZERO_ORDER_SIGN"] == (if poly[3] > 0.0 then 1 else 0)
    ensures r.values["FIRST_ORDER"] == Trunc(AbsReal(poly[2] * 1000000.0)) >= 0
    ensures r.values["ZERO_ORDER"] == Trunc(AbsReal(poly[3] * 1000000.0)) >= 0
    ensures 0 <= r.values["COUNTER"] < 256 && r.values["COUNTER"] % 256 == frame % 256
  {
    TruncCommutesWithAbs(poly[2] * 1000000.0);
    TruncCommutesWithAbs(poly[3] * 1000000.0);
    Packed(canName, 0, map[
      "FIRST_ORDER_SIGN" := SignBit(poly[2]),
      "FIRST_ORDER" := ScaledMagnitude(poly[2], 1000000.0),
      "ZERO_ORDER_SIGN" := SignBit(poly[3]),
      "ZERO_ORDER" := ScaledMagnitude(poly[3], 1000000.0),
      "COUNTER" := frame % 256])
  }

  /** The two actuator values the steering-angle telemetry carries. */
  datatype Actuators = Actuators(steer: real, steerAngle: real)

  /** `create_openpilot_steering_angle` */
  function CreateSteeringAngle(frame: int, actuators: Actuators, canName: string): (r: Outbound)
    ensures r.Packed? && r.name == canName && r.bus == 0
    ensures r.values.Keys == {"STEERING_ANGLE", "STEERING_ANGLE_SIGN",
                              "STEERING_ANGLE_TARGET", "STEERING_ANGLE_TARGET_SIGN", "COUNTER"}
    ensures r.values["STEERING_ANGLE_SIGN"] == (if actuators.steer > 0.0 then 1 else 0)
    ensures r.values["STEERING_ANGLE_TARGET_SIGN"] == (if actuators.steerAngle > 0.0 then 1 else 0)
    ensures r.values["STEERING_ANGLE"] == Abs(Trunc(actuators.steer * 10000.0))
    ensures r.values["STEERING_ANGLE_TARGET"] == Abs(Trunc(actuators.steerAngle * 10000.0))
    ensures 0 <= r.values["COUNTER"] < 256 && r.values["COUNTER"] % 256 == frame % 256
  {
    TruncCommutesWithAbs(actuators.steer * 10000.0);
    TruncCommutesWithAbs(actuators.steerAngle * 10000.0);
    Packed(canName, 0, map[
      "STEERING_ANGLE" := Trunc(AbsReal(actuators.steer * 10000.0)),
      "STEERING_ANGLE_SIGN" := SignBit(actuators.steer),
      "STEERING_ANGLE_TARGET" := Trunc(AbsReal(actuators.steerAngle * 10000.0)),
      "STEERING_ANGLE_TARGET_SIGN" := SignBit(actuators.steerAngle),
      "COUNTER" := frame % 256])
  }

  /** Sign and magnitude together recover the truncated scaled value. */
  lemma SignMagnitudeRecoversValue(x: real, scale: real)
    requires scale > 0.0
    ensures Trunc(x * scale) == (if SignBit(x) == 1 then 1 else -1) * ScaledMagnitude(x, scale)
  {
    if x > 0.0 {
      assert x * scale > 0.0;
    } else {
      assert x * scale <= 0.0;
    }
  }

  /** A negative third-order coefficient of -5e-8 is sent with sign 0 and
      magnitude 5; a first-order coefficient of 2e-6 with sign 1 and magnitude 2. */
  lemma PathPolyExample(frame: int, prob: real, canName: string)
    ensures CreatePathPolyFront(frame, [-0.00000005, 0.0], prob, canName).values["THIRD_ORDER_SIGN"] == 0
    ensures CreatePathPolyFront(frame, [-0.00000005, 0.0], prob, canName).values["THIRD_ORDER"] == 5
    ensures CreatePathPolyBack(frame, [0.0, 0.0, 0.000002, 0.0], prob, canName).values["FIRST_ORDER_SIGN"] == 1
    ensures CreatePathPolyBack(frame, [0.0, 0.0, 0.000002, 0.0], prob, canName).values["FIRST_ORDER"] == 2
  {
    assert -0.00000005 * 100000000.0 == -5.0;
    assert 0.000002 * 1000000.0 == 2.0;
  }
}

=== FILE: fingerprint.dfy ===
/**
 Model of the fingerprinting loop of `fingerprint` in selfdrive/car/car_helpers.py.

 The `while 1` loop becomes an explicit state (`FpState`: the remaining
 candidates, the signature `finger`, the latched start time `st` and
 `can_seen`) advanced once per poll by `Advance` (the drained frames, then the
 start-time latch) and judged by `Decide` (accept, fail or keep polling).
 The socket drain, the sleep and the clock become inputs: each poll carries its
 frames and the two clock readings the loop body takes. The per-frame
 elimination `eliminate_incompatible_cars` and the candidate list
 `all_known_cars()` are not part of this model; they are parameters.
 */
module Fingerprint {
  import opened Wrappers
  import opened Bytes

  /** A received CAN frame: its address, payload and source bus. */
  datatype BusFrame = BusFrame(address: int, dat: seq<Byte>, src: int)

  /** The signature: for each address seen, the length of its latest payload. */
  type Finger = map<int, nat>

  /** `eliminate_incompatible_cars(can, candidate_cars)` */
  type Eliminator = (BusFrame, seq<string>) -> seq<string>

  datatype FpState = FpState(candidates: seq<string>, finger: Finger, st: Option<real>, canSeen: bool)

  /** The loop's state on entry. */
  function Init(allKnownCars: seq<string>): FpState {
    FpState(allKnownCars, map[], None, false)
  }

  /** Only frames on bus 0 with an 11-bit identifier take part. */
  predicate Fingerprintable(f: BusFrame) {
    f.src == 0 && f.address < 0x800
  }

  /** The addresses of the frames that take part. */
  function RelevantAddresses(frames: seq<BusFrame>): set<int> {
    set f | f in frames && Fingerprintable(f) :: f.address
  }

  /** The payload length of the last frame of `frames` that takes part and
      has address `a`; none when no such frame arrived. */
  function LastLength(frames: seq<BusFrame>, a: int): (r: Option<nat>)
    ensures r.Some? <==> a in RelevantAddresses(frames)
    decreases |frames|
  {
    if |frames| == 0 then None
    else
      var n := |frames| - 1;
      assert frames == frames[..n] + [frames[n]];
      RelevantAddressesAppend(frames[..n], [frames[n]]);
      if Fingerprintable(frames[n]) && frames[n].address == a then Some(|frames[n].dat|)
      else LastLength(frames[..n], a)
  }

  /** `after` is the signature `before` once `frames` have been recorded:
      every address that took part maps to the length of its last frame, and
      every other entry is unchanged. */
  predicate SignatureAfter(before: Finger, frames: seq<BusFrame>, after: Finger) {
    && after.Keys == before.Keys + RelevantAddresses(frames)
    && forall a :: a in after ==>
         after[a] == (if LastLength(frames, a).Some? then LastLength(frames, a).value else before[a])
  }

  /** The last frame of `a + b` with an address is in `b` if `b` has one. */
  lemma {:induction false} LastLengthAppend(a: seq<BusFrame>, b: seq<BusFrame>, x: int)
    ensures LastLength(a + b, x) == if LastLength(b, x).Some? then LastLength(b, x) else LastLength(a, x)
    decreases |b|
  {
    if |b| == 0 {
      assert a + b == a;
    } else {
      var n := |b| - 1;
      assert (a + b)[..|a + b| - 1] == a + b[..n];
      assert (a + b)[|a + b| - 1] == b[n];
      LastLengthAppend(a, b[..n], x);
    }
  }

  /** Recording one more frame. */
  lemma SignatureStep(before: Finger, frames: seq<BusFrame>, mid: Finger, f: BusFrame)
    requires SignatureAfter(before, frames, mid)
    ensures SignatureAfter(before, frames + [f], if Fingerprintable(f) then mid[f.address := |f.dat|] else mid)
  {
    var all := frames + [f];
    var after := if Fingerprintable(f) then mid[f.address := |f.dat|] else mid;
    RelevantSnoc(frames, f);
    forall a | a in after
      ensures after[a] == (if LastLength(all, a).Some? then LastLength(all, a).value else before[a])
    {
      LastLengthSnoc(frames, f, a);
    }
  }

  lemma RelevantSnoc(frames: seq<BusFrame>, f: BusFrame)
    ensures RelevantAddresses(frames + [f])
         == RelevantAddresses(frames) + (if Fingerprintable(f) then {f.address} else {})
  {
    RelevantAddressesAppend(frames, [f]);
    assert RelevantAddresses([f]) == if Fingerprintable(f) then {f.address} else {};
  }

  lemma LastLengthSnoc(frames: seq<BusFrame>, f: BusFrame, a: int)
    ensures LastLength(frames + [f], a)
         == if Fingerprintable(f) && f.address == a then Some(|f.dat|) else LastLength(frames, a)
  {
    var all := frames + [f];
    assert all[..|all| - 1] == frames && all[|all| - 1] == f;
  }

  /** Recording two runs of frames is recording their concatenation. */
  lemma SignatureCompose(f0: Finger, xs: seq<BusFrame>, f1: Finger, ys: seq<BusFrame>, f2: Finger)
    requires SignatureAfter(f0, xs, f1) && SignatureAfter(f1, ys, f2)
    ensures SignatureAfter(f0, xs + ys, f2)
  {
    RelevantAddressesAppend(xs, ys);
    forall a | a in f2
      ensures f2[a] == (if LastLength(xs + ys, a).Some? then LastLength(xs + ys, a).value else f0[a])
    {
      LastLengthAppend(xs, ys, a);
    }
  }

  // ---------------------------------------------------------------------
  // Frame processing
  // ---------------------------------------------------------------------

  /** The body of the inner `for` loop, for one frame. */
  function ProcessFrame(eliminate: Eliminator, s: FpState, f: BusFrame): (s': FpState)
    ensures s'.canSeen && s'.st == s.st
    ensures Fingerprintable(f) ==> s'.finger == s.finger[f.address := |f.dat|]
    ensures Fingerprintable(f) ==> s'.candidates == eliminate(f, s.candidates)
    ensures !Fingerprintable(f) ==> s'.finger == s.finger && s'.candidates == s.candidates
  {
    var s1 := s.(canSeen := true);
    if f.src == 0 && f.address < 0x800 then
      s1.(finger := s1.finger[f.address := |f.dat|],
          candidates := eliminate(f, s1.candidates))
    else s1
  }

  /** The frames of one drain, in arrival order. */
  function ProcessBatch(eliminate: Eliminator, s: FpState, frames: seq<BusFrame>): (s': FpState)
    ensures s'.st == s.st
    ensures s'.canSeen == (s.canSeen || |frames| > 0)
    ensures SignatureAfter(s.finger, frames, s'.finger)
    decreases |frames|
  {
    if |frames| == 0 then s
    else
      var n := |frames| - 1;
      var mid := ProcessBatch(eliminate, s, frames[..n]);
      assert frames == frames[..n] + [frames[n]];
      SignatureStep(s.finger, frames[..n], mid.finger, frames[n]);
      ProcessFrame(eliminate, mid, frames[n])
  }

  /** Frame `i` is relevant and no later relevant frame has its address. */
  predicate LatestAt(frames: seq<BusFrame>, i: int) {
    0 <= i < |frames| && Fingerprintable(frames[i])
    && forall j :: i < j < |frames| && Fingerprintable(frames[j]) ==> frames[j].address != frames[i].address
  }

  lemma LatestInPrefix(frames: seq<BusFrame>, i: int)
    requires |frames| > 0 && LatestAt(frames, i) && i < |frames| - 1
    ensures LatestAt(frames[..|frames| - 1], i)
  {
  }

  /** `LastLength` read off by index: the length of the frame that is latest
      for its address. */
  lemma {:induction false} LastLengthIsLatest(frames: seq<BusFrame>, i: int)
    requires LatestAt(frames, i)
    ensures LastLength(frames, frames[i].address) == Some(|frames[i].dat|)
    decreases |frames|
  {
    var n := |frames| - 1;
    if i < n {
      LatestInPrefix(frames, i);
      LastLengthIsLatest(frames[..n], i);
      assert !Fingerprintable(frames[n]) || frames[n].address != frames[i].address;
    }
  }

  /** For every address in the batch, the signature holds the length of the
      latest relevant frame with that address. */
  lemma BatchRecordsLatestLength(eliminate: Eliminator, s: FpState, frames: seq<BusFrame>, i: int)
    requires LatestAt(frames, i)
    ensures ProcessBatch(eliminate, s, frames).finger[frames[i].address] == |frames[i].dat|
  {
    LastLengthIsLatest(frames, i);
  }

  /** Entries for addresses the batch does not mention are unchanged; this is
      the `None` case of `SignatureAfter`. */
  lemma BatchKeepsOtherEntries(eliminate: Eliminator, s: FpState, frames: seq<BusFrame>, a: int)
    requires a in s.finger && a !in RelevantAddresses(frames)
    ensures ProcessBatch(eliminate, s, frames).finger[a] == s.finger[a]
  {
  }

  /** Elimination that only ever removes candidates. */
  ghost predicate NeverAddsCandidates(eliminate: Eliminator) {
    forall f, cs, c :: c in eliminate(f, cs) ==> c in cs
  }

  /** Elimination that never lengthens the candidate list. */
  ghost predicate NeverGrows(eliminate: Eliminator) {
    forall f, cs :: |eliminate(f, cs)| <= |cs|
  }

  /** If elimination only removes candidates, a batch never brings one back. */
  lemma {:induction false} BatchKeepsCandidatesWithin(eliminate: Eliminator, s: FpState, frames: seq<BusFrame>)
    requires NeverAddsCandidates(eliminate)
    ensures forall c :: c in ProcessBatch(eliminate, s, frames).candidates ==> c in s.candidates
    decreases |frames|
  {
    if |frames| > 0 {
      BatchKeepsCandidatesWithin(eliminate, s, frames[..|frames| - 1]);
    }
  }

  /** Under the assumption that elimination only removes candidates, a batch
      never brings back a candidate and never lengthens the list. */
  lemma {:induction false} BatchNarrowsCandidates(eliminate: Eliminator, s: FpState, frames: seq<BusFrame>)
    requires NeverAddsCandidates(eliminate) && NeverGrows(eliminate)
    ensures forall c :: c in ProcessBatch(eliminate, s, frames).candidates ==> c in s.candidates
    ensures |ProcessBatch(eliminate, s, frames).candidates| <= |s.candidates|
    decreases |frames|
  {
    BatchKeepsCandidatesWithin(eliminate, s, frames);
    if |frames| > 0 {
      BatchNarrowsCandidates(eliminate, s, frames[..|frames| - 1]);
    }
  }

  // ---------------------------------------------------------------------
  // One poll
  // ---------------------------------------------------------------------

  /** The frames of one drain, then the start-time latch: `st` is set, to the
      clock reading `latch`, at the first poll after any frame at all (even a
      filtered one) has been seen, and is never changed again. */
  function Advance(eliminate: Eliminator, s: FpState, frames: seq<BusFrame>, latch: real): (s': FpState)
    ensures s'.candidates == ProcessBatch(eliminate, s, frames).candidates
    ensures s'.finger == ProcessBatch(eliminate, s, frames).finger
    ensures s'.canSeen == (s.canSeen || |frames| > 0)
    ensures s.st.Some? ==> s'.st == s.st
    ensures s.st.None? ==> s'.st == (if s'.canSeen then Some(latch) else None)
  {
    var s1 := ProcessBatch(eliminate, s, frames);
    if s1.st.None? && s1.canSeen then s1.(st := Some(latch)) else s1
  }

  /** `"TOYOTA" in name`: substring containment. */
  predicate Contains(name: string, part: string) {
    exists i :: 0 <= i <= |name| - |part| && OccursAt(name, part, i)
  }

  predicate OccursAt(name: string, part: string, i: int) {
    0 <= i <= |name| - |part| && name[i..i + |part|] == part
  }

  /** How long a sole candidate must hold before it is accepted: Toyota and
      Lexus control units start broadcasting late. */
  function SettleTime(car: string): (t: real)
    ensures t == 1.0 <==> Contains(car, "TOYOTA") || Contains(car, "LEXUS")
    ensures t == 0.1 || t == 1.0
  {
    if Contains(car, "TOYOTA") || Contains(car, "LEXUS") then 1.0 else 0.1
  }

  /** The truth of `timeout and (ts - st_passive) > timeout`. */
  predicate TimedOut(timeout: Option<real>, ts: real, stPassive: real) {
    timeout.Some? && timeout.value != 0.0 && ts - stPassive > timeout.value
  }

  datatype Decision = Continue | Accept(car: string, finger: Finger) | Fail(finger: Finger)

  /** The decision at the end of one loop iteration, at clock reading `ts`. */
  function Decide(s: FpState, ts: real, stPassive: real, timeout: Option<real>): (d: Decision)
    ensures d.Accept? <==> |s.candidates| == 1 && s.st.Some? && ts - s.st.value > SettleTime(s.candidates[0])
    ensures d.Accept? ==> d.car == s.candidates[0] && d.finger == s.finger
    ensures d.Fail? <==> !(|s.candidates| == 1 && s.st.Some?)
                         && (|s.candidates| == 0 || TimedOut(timeout, ts, stPassive))
    ensures d.Fail? ==> d.finger == s.finger
  {
    if |s.candidates| == 1 && s.st.Some? then
      if ts - s.st.value > SettleTime(s.candidates[0]) then Accept(s.candidates[0], s.finger)
      else Continue
    else if |s.candidates| == 0 || TimedOut(timeout, ts, stPassive) then Fail(s.finger)
    else Continue
  }

  /** A sole candidate with a latched start time is never failed, not even
      after the timeout: the `elif` is skipped. */
  lemma SettlingCandidateNeverFails(s: FpState, ts: real, stPassive: real, timeout: Option<real>)
    requires |s.candidates| == 1 && s.st.Some?
    ensures !Decide(s, ts, stPassive, timeout).Fail?
  {
  }

  /** With no candidate left the loop fails at once, whatever the timeout. */
  lemma NoCandidatesFails(s: FpState, ts: real, stPassive: real, timeout: Option<real>)
    requires |s.candidates| == 0
    ensures Decide(s, ts, stPassive, timeout) == Fail(s.finger)
  {
  }

  /** Without a timeout (or with a zero one) the loop only fails for want of candidates. */
  lemma NoTimeoutFailsOnlyWithoutCandidates(s: FpState, ts: real, stPassive: real, timeout: Option<real>)
    requires timeout.None? || timeout == Some(0.0)
    ensures Decide(s, ts, stPassive, timeout).Fail? <==> |s.candidates| == 0
  {
  }

  /** A sole candidate `car` latched at `t0` is accepted exactly after its
      settle time, strictly: not at `t0 + 0.1` (or `t0 + 1.0`), but after it. */
  lemma AcceptsExactlyAfterSettling(car: string, finger: Finger, t0: real, ts: real, stPassive: real, timeout: Option<real>)
    ensures var d := Decide(FpState([car], finger, Some(t0), true), ts, stPassive, timeout);
            (d == Accept(car, finger) <==> ts > t0 + SettleTime(car))
            && (ts <= t0 + SettleTime(car) ==> d == Continue)
  {
  }

  /** Toyota models wait a full second. */
  lemma ToyotaSettlesInOneSecond(car: string)
    requires |car| >= 6 && car[..6] == "TOYOTA"
    ensures SettleTime(car) == 1.0
  {
    assert OccursAt(car, "TOYOTA", 0);
  }

  // ---------------------------------------------------------------------
  // The loop
  // ---------------------------------------------------------------------

  /** What one poll receives: the drained frames, and the clock readings taken
      for the start-time latch and for the decision. */
  datatype PollInput = PollInput(frames: seq<BusFrame>, latch: real, ts: real)

  /** `(candidate, finger)` as `fingerprint` returns it, or the state it is
      still polling in when the input runs out. */
  datatype FpResult =
    | Identified(car: string, finger: Finger)
    | NotIdentified(finger: Finger)
    | StillPolling(state: FpState)

  function Loop(eliminate: Eliminator, s: FpState, polls: seq<PollInput>,
                stPassive: real, timeout: Option<real>): (r: FpResult)
    ensures r.StillPolling? ==> SignatureAfter(s.finger, FramesOf(polls), r.state.finger)
    ensures r.StillPolling? && s.st.Some? ==> r.state.st == s.st
    ensures r.StillPolling? ==> (r.state.canSeen <==> s.canSeen || |FramesOf(polls)| > 0)
    decreases |polls|
  {
    if |polls| == 0 then StillPolling(s)
    else
      var s' := Advance(eliminate, s, polls[0].frames, polls[0].latch);
      match Decide(s', polls[0].ts, stPassive, timeout)
      case Accept(car, finger) => Identified(car, finger)
      case Fail(finger) => NotIdentified(finger)
      case Continue =>
        var r := Loop(eliminate, s', polls[1..], stPassive, timeout);
        if r.StillPolling? then
          SignatureCompose(s.finger, polls[0].frames, s'.finger, FramesOf(polls[1..]), r.state.finger);
          r
        else r
  }

  /** `fingerprint(logcan, timeout)`, from `all_known_cars()` and the session
      start `st_passive`. */
  function RunFingerprint(eliminate: Eliminator, allKnownCars: seq<string>, stPassive: real,
                          timeout: Option<real>, polls: seq<PollInput>): (r: FpResult)
    ensures r.StillPolling? ==> SignatureAfter(map[], FramesOf(polls), r.state.finger)
  {
    Loop(eliminate, Init(allKnownCars), polls, stPassive, timeout)
  }

  /** All frames of the polls, in order. */
  function FramesOf(polls: seq<PollInput>): seq<BusFrame>
    decreases |polls|
  {
    if |polls| == 0 then [] else polls[0].frames + FramesOf(polls[1..])
  }

  lemma RelevantAddressesAppend(a: seq<BusFrame>, b: seq<BusFrame>)
    ensures RelevantAddresses(a + b) == RelevantAddresses(a) + RelevantAddresses(b)
  {
    forall x | x in RelevantAddresses(a + b)
      ensures x in RelevantAddresses(a) + RelevantAddresses(b)
    {
      var f :| f in a + b && Fingerprintable(f) && f.address == x;
      assert f in a || f in b;
    }
  }

  /** Whether it accepts or fails, the loop returns the signature of the
      polls it consumed: every address that took part maps to the length of
      its last frame, whether or not it mattered to the decision. */
  lemma {:induction false} LoopReturnsWholeSignature(eliminate: Eliminator, s: FpState, polls: seq<PollInput>,
                                                     stPassive: real, timeout: Option<real>)
    ensures var r := Loop(eliminate, s, polls, stPassive, timeout);
            !r.StillPolling? ==>
              exists k :: 1 <= k <= |polls|
                && Loop(eliminate, s, polls[..k - 1], stPassive, timeout).StillPolling?
                && Loop(eliminate, s, polls[..k], stPassive, timeout) == r
                && SignatureAfter(s.finger, FramesOf(polls[..k]), r.finger)
    decreases |polls|
  {
    var r := Loop(eliminate, s, polls, stPassive, timeout);
    if |polls| > 0 && !r.StillPolling? {
      var s' := Advance(eliminate, s, polls[0].frames, polls[0].latch);
      assert polls[..0] == [];
      assert polls[..1][0] == polls[0] && polls[..1][1..] == [];
      assert FramesOf(polls[..1]) == polls[0].frames;
      match Decide(s', polls[0].ts, stPassive, timeout)
      case Accept(_, _) =>
        assert Loop(eliminate, s, polls[..1], stPassive, timeout) == r;
        assert SignatureAfter(s.finger, FramesOf(polls[..1]), r.finger);
      case Fail(_) =>
        assert Loop(eliminate, s, polls[..1], stPassive, timeout) == r;
        assert SignatureAfter(s.finger, FramesOf(polls[..1]), r.finger);
      case Continue =>
        LoopReturnsWholeSignature(eliminate, s', polls[1..], stPassive, timeout);
        var k :| 1 <= k <= |polls[1..]|
          && Loop(eliminate, s', polls[1..][..k - 1], stPassive, timeout).StillPolling?
          && Loop(eliminate, s', polls[1..][..k], stPassive, timeout) == r
          && SignatureAfter(s'.finger, FramesOf(polls[1..][..k]), r.finger);
        DecisionAfterContinue(eliminate, s, polls, k, stPassive, timeout, r);
        assert 1 <= k + 1 <= |polls|
          && Loop(eliminate, s, polls[..k], stPassive, timeout).StillPolling?
          && Loop(eliminate, s, polls[..k + 1], stPassive, timeout) == r
          && SignatureAfter(s.finger, FramesOf(polls[..k + 1]), r.finger);
    }
  }

  /** A decision at poll k of the remaining polls, after a first poll that
      continues, is a decision at poll k + 1 of all of them. */
  lemma DecisionAfterContinue(eliminate: Eliminator, s: FpState, polls: seq<PollInput>, k: nat,
                              stPassive: real, timeout: Option<real>, r: FpResult)
    requires 1 <= k < |polls| && !r.StillPolling?
    requires Decide(Advance(eliminate, s, polls[0].frames, polls[0].latch), polls[0].ts, stPassive, timeout).Continue?
    requires var s' := Advance(eliminate, s, polls[0].frames, polls[0].latch);
             Loop(eliminate, s', polls[1..][..k - 1], stPassive, timeout).StillPolling?
             && Loop(eliminate, s', polls[1..][..k], stPassive, timeout) == r
             && SignatureAfter(s'.finger, FramesOf(polls[1..][..k]), r.finger)
    ensures Loop(eliminate, s, polls[..k], stPassive, timeout).StillPolling?
    ensures Loop(eliminate, s, polls[..k + 1], stPassive, timeout) == r
    ensures SignatureAfter(s.finger, FramesOf(polls[..k + 1]), r.finger)
  {
    var s' := Advance(eliminate, s, polls[0].frames, polls[0].latch);
    LoopOfPrefix(eliminate, s, polls, k - 1, stPassive, timeout);
    LoopOfPrefix(eliminate, s, polls, k, stPassive, timeout);
    SignatureCompose(s.finger, polls[0].frames, s'.finger, FramesOf(polls[1..][..k]), r.finger);
  }

  /** When the first poll continues, the loop over the first k + 1 polls is the
      loop over the next k from the state after the first. */
  lemma LoopOfPrefix(eliminate: Eliminator, s: FpState, polls: seq<PollInput>, k: nat,
                     stPassive: real, timeout: Option<real>)
    requires k < |polls|
    requires Decide(Advance(eliminate, s, polls[0].frames, polls[0].latch), polls[0].ts, stPassive, timeout).Continue?
    ensures Loop(eliminate, s, polls[..k + 1], stPassive, timeout)
         == Loop(eliminate, Advance(eliminate, s, polls[0].frames, polls[0].latch), polls[1..][..k], stPassive, timeout)
    ensures FramesOf(polls[..k + 1]) == polls[0].frames + FramesOf(polls[1..][..k])
  {
    assert polls[..k + 1][0] == polls[0];
    assert polls[..k + 1][1..] == polls[1..][..k];
  }

  /** If elimination only removes candidates, the identified car is one of the
      starting candidates. */
  lemma {:induction false} IdentifiedCarWasCandidate(eliminate: Eliminator, s: FpState, polls: seq<PollInput>,
                                                     stPassive: real, timeout: Option<real>)
    requires NeverAddsCandidates(eliminate)
    ensures var r := Loop(eliminate, s, polls, stPassive, timeout);
            r.Identified? ==> r.car in s.candidates
    decreases |polls|
  {
    if |polls| > 0 {
      var s' := Advance(eliminate, s, polls[0].frames, polls[0].latch);
      BatchKeepsCandidatesWithin(eliminate, s, polls[0].frames);
      IdentifiedCarWasCandidate(eliminate, s', polls[1..], stPassive, timeout);
    }
  }
}

=== FILE: wrappers.dfy ===
/** The optional value used wherever the modelled code returns Python's
    `None` or `False` instead of a value. */
module Wrappers {

  datatype Option<+T> = None | Some(value: T) {

    /** The encapsulated value, or `default` when there is none. */
    function GetOr(default: T): T {
      match this
      case Some(v) => v
      case None => default
    }
  }
}
